=== FILE: README.md ===
# Session recorder: a Dafny model

This project models the core of a tabletop-session recorder written in Go:

- **The recording controller.** It is a state machine over Idle, Recording, Paused and Stopped.
  - It owns one output WAV file per session and tracks the session's active time across pauses.
  - It creates a database record when a session starts and marks that record completed when the session stops.
- **The write rule of the capture callback.** Audio batches reach the file only while the session is recording.
- **The 44-byte RIFF/WAVE header.** The header is written when a session starts and rewritten for the final length when it stops.
- **The dynamic `UPDATE` statement of the recordings repository.** `MarkCompleted` uses it.
- **The `HH:MM:SS` / `MM:SS` display of the command-line front end.**

Conventions:

- Time is an input: every command receives the current instant `now`, in nanoseconds of a monotonic clock.
- Whatever the operating system or the database answers is also an input:
  - `Outcome` for a call that can fail;
  - `Result<int>` for the record's id;
  - `ExecOutcome` for an `Exec`/`RowsAffected` pair.
- A file is an `AudioFile` object. It holds its bytes, its current offset, and whether it is closed.
  - `Write` writes at the offset and moves it.
  - `WriteAt(buf, 0)` overwrites the start and leaves the offset alone.
- Go's fixed-width arithmetic is written out:
  - conversions to `uint32` and `uint16` keep the low bits (`ToUint32`, `ToUint16`);
  - Go's `/` and `%` on signed integers truncate toward zero (`GoTime.TruncDiv`, `Cli.TruncRem`);
  - `int(d.Seconds())` truncates (`WholeSeconds`).

Modules, one per file:

- `Outcomes` (outcomes.dfy): `Option`, `Outcome` and `Result`.
- `GoTime` (go_time.dfy): `time.Duration` units, truncating division and whole seconds.
- `Wav` (wav.dfy):
  - the header as a byte sequence and as the imperative buffer-filling code;
  - the header's field layout;
  - finalisation.
- `Files` (files.dfy): the `*os.File` operations the recorder uses.
- `RecordingRepository` (recording_repository.dfy): `Update` and `MarkCompleted`.
- `Recorder` (recorder.dfy):
  - the `Recorder` class, with `New` as its constructor;
  - `Start`, `Pause`, `Resume`, `Stop`, `GetDuration`, the frame callback, `writeWAVHeader` and `finalizeWAVFile`;
  - the session scenarios, corrected and as written, for the offset finding below.
- `Cli` (format_duration.dfy): `formatDuration`.

### Where the code departs from what it evidently intends

For the first four points below the model follows the code. For the last one it models both the code and the corrected behaviour.

- **A failed `Stop` does not release the session.**
  - When finalisation, `Stat`, `Close` or the database update fails, the state stays Recording or Paused. The file stays referenced, and it is closed if `Close` was reached.
  - The stop channel is already closed, so a second `Stop` panics with "close of closed channel" (`Recorder.Recorder.Stop`). A new `Start` is refused as "already active".
- **The duration `Stop` records includes an open pause.** `Stop` computes `now - startTime - pausedTotal`, so stopping while paused counts the pause still in progress (`StopDurationCountsOpenPause`). After a successful `Stop`, `GetDuration` is 0, because the state is Stopped.
- **A `Start` whose database record cannot be created leaves a closed file referenced.**
  - The state stays Idle or Stopped.
  - The file, the start instant and the paused total of the failed attempt remain set (`Recorder.Recorder.Start`).
- **A failed completion update is reported with its prefix twice.** An `Exec` failure reads "failed to update recording: failed to update recording: …". A missing record reads "failed to update recording: recording not found" (`CompletionReply`).
- **The header is written with `WriteAt` and the audio with `Write`.** The audio therefore starts at offset 0, over the header, and not after it: see Findings.
  - The code itself shows the audio is meant to follow the header. The comment at internal/recorder/recorder.go:118 calls the header a placeholder to be updated at stop. The payload size at internal/recorder/recorder.go:361 is the file size less 44.
  - `Recorder.Recorder.StartAsWritten` and `Recorder.RecordSessionAsWritten` run a session as written.
  - `Recorder.Recorder.Start` and `Recorder.RecordSession` run it with the header written through `Write`, so that the audio follows it.

## Model

| member | source | states |
|---|---|---|
| Wav.DefaultAudioFormat | internal/recorder/recorder.go:24-30 | the default format is 16 kHz, mono, 16-bit |
| Wav.ToUint32 | internal/recorder/recorder.go:323 | the result fits in 32 bits and equals the input when the input already fits |
| Wav.ToUint16 | internal/recorder/recorder.go:324-325 | the result fits in 16 bits and equals the input when the input already fits |
| Wav.LE32RoundTrip | internal/recorder/recorder.go:366-371 | reading back the four little-endian bytes gives the 32-bit value written |
| Wav.LE16RoundTrip | internal/recorder/recorder.go:373-376 | reading back the two little-endian bytes gives the 16-bit value written |
| Wav.U32AtSlice | internal/recorder/recorder.go:366-371 | a 32-bit field written at any offset of a larger buffer reads back at that offset |
| Wav.U16AtSlice | internal/recorder/recorder.go:373-376 | a 16-bit field written at any offset of a larger buffer reads back at that offset |
| Wav.ByteRateExact | internal/recorder/recorder.go:326 | without overflow, the wrapped byte-rate computation is sampleRate × channels × bitDepth / 8 |
| Wav.BlockAlignExact | internal/recorder/recorder.go:327 | without overflow, the wrapped block-align computation is channels × bitDepth / 8 |
| Wav.HeaderLayout | internal/recorder/recorder.go:329-348 | every header field read back at its offset: the four tags, chunk size (payload + 36) mod 2^32, fmt size 16, PCM tag 1, channels, sample rate, byte rate, block align, bits per sample, payload size |
| Wav.RiffLayout | internal/recorder/recorder.go:331-334 | bytes 0-12 are "RIFF", the chunk size (payload + 36) mod 2^32, and "WAVE" |
| Wav.FmtLayout | internal/recorder/recorder.go:336-344 | bytes 12-36 are "fmt ", 16, 1, channels, sample rate, byte rate, block align and bits per sample, each wrapped to its width |
| Wav.DataLayout | internal/recorder/recorder.go:346-348 | bytes 36-44 are "data" and the payload size |
| Wav.OverwriteAtStart | internal/recorder/recorder.go:350 | a write at offset 0 puts the buffer first, keeps every later byte, and grows a shorter file to the buffer's length |
| Wav.FinalizedFields | internal/recorder/recorder.go:355-363 | finalising a file of at least 44 bytes keeps its length and every audio byte, declares payload length − 44 and chunk size length − 8, and its first 44 bytes are the header for that payload |
| Wav.FinalizeIdempotent | internal/recorder/recorder.go:355-363 | finalising a file of at least 44 bytes twice gives the same file as finalising it once |
| Wav.HeaderOnlyFinalization | internal/recorder/recorder.go:355-363 | finalising a file that is exactly a header gives the header for an empty payload |
| Wav.NegativeWraps | internal/recorder/recorder.go:361 | a negative size converted to uint32 becomes that size plus 2^32 |
| Wav.ShortFileFinalization | internal/recorder/recorder.go:361 | a file of n < 44 bytes becomes a bare header declaring 2^32 − 44 + n payload bytes (4294967252 for an empty file), and finalisation is then not idempotent |
| Wav.HeaderBytes | internal/recorder/recorder.go:321-348 | the header is 44 bytes long; its fields are given by `HeaderLayout` |
| Wav.ByteRate | internal/recorder/recorder.go:326 | the byte rate fits in 32 bits; `ByteRateExact` gives its value |
| Wav.BlockAlign | internal/recorder/recorder.go:327 | the block align fits in 16 bits; `BlockAlignExact` gives its value |
| Wav.Finalized | internal/recorder/recorder.go:355-363 | no contract of its own: `FinalizedFields`, `FinalizeIdempotent`, `HeaderOnlyFinalization` and `ShortFileFinalization` state what it does |
| Wav.CopyTag | internal/recorder/recorder.go:332 | the four tag bytes land at the offset; the bytes before and after are unchanged |
| Wav.WriteUint32 | internal/recorder/recorder.go:366-371 | the buffer holds the value's little-endian bytes at the offset and is unchanged elsewhere |
| Wav.WriteUint16 | internal/recorder/recorder.go:373-376 | the buffer holds the value's little-endian bytes at the offset and is unchanged elsewhere |
| Wav.WriteRiffChunk | internal/recorder/recorder.go:331-334 | the first 12 buffer bytes are "RIFF", the wrapped chunk size and "WAVE" |
| Wav.WriteFmtChunk | internal/recorder/recorder.go:336-344 | bytes 12-36 hold the fmt sub-chunk fields in order after the unchanged first 12 bytes |
| Wav.WriteDataChunk | internal/recorder/recorder.go:346-348 | the buffer ends with "data" and the payload size after its unchanged first 36 bytes |
| Wav.BuildHeader | internal/recorder/recorder.go:321-348 | the buffer filled field by field is exactly the header of `HeaderBytes`, whose layout `HeaderLayout` gives |
| Files.Splice | internal/recorder/recorder.go:285 | a write at an offset replaces the bytes under it, grows the file past its end, zero-fills a gap and keeps every other byte |
| Files.SpliceAtStart | internal/recorder/recorder.go:350 | a write at offset 0 is the same as `OverwriteAtStart` |
| Files.SpliceAtEnd | internal/recorder/recorder.go:285 | a write at the end of the contents appends |
| Files.AudioFile.constructor | internal/recorder/recorder.go:113 | a created file is empty, open and at offset 0 |
| Files.AudioFile.Write | internal/recorder/recorder.go:285 | on success the contents are spliced at the offset and the offset advances by the length; on a closed file it fails with "file already closed"; on failure nothing changes |
| Files.AudioFile.WriteAtStart | internal/recorder/recorder.go:350 | on success the start is overwritten and the offset does not move; on a closed file it fails |
| Files.AudioFile.Size | internal/recorder/recorder.go:356-361 | reports the content length, the operating system's error, or "file already closed" |
| Files.AudioFile.Close | internal/recorder/recorder.go:216 | the file is closed afterwards even when the call fails; closing twice fails |
| GoTime.TruncDiv | cmd/recorder/main.go:94-96 | the quotient rounded toward zero: for a ≥ 0, q·b ≤ a < (q + 1)·b with q ≥ 0; for a < 0 the same bounds hold of −a and −q |
| GoTime.WholeSeconds | internal/recorder/recorder.go:201 | the count of whole seconds, truncated toward zero: for a non-negative duration s seconds ≤ d < s + 1 seconds, and mirrored for a negative one |
| Recorder.Code | internal/recorder/recorder.go:35-40 | the four states are the constants 0 to 3, Idle being 0 and Stopped 3 |
| Recorder.StateString | internal/recorder/recorder.go:42-55 | "unknown" is returned exactly for values outside 0 to 3 |
| Recorder.StateNamesDistinct | internal/recorder/recorder.go:42-55 | different states have different codes and different names |
| Recorder.Recorder.constructor | internal/recorder/recorder.go:85-96 | a zero sample rate selects the default format, otherwise the given one; the recorder starts Idle with no file and the invariant holds |
| Recorder.Recorder.GetDuration | internal/recorder/recorder.go:239-253 | no contract of its own: `DurationInRange`, `DurationFrozenWhilePaused`, `DurationAdvancesWhileRecording` and `StopDurationCountsOpenPause` state what it computes |
| Recorder.Recorder.DurationInRange | internal/recorder/recorder.go:239-253 | the active time is never negative and never exceeds the time since the session started; outside a session it is 0 |
| Recorder.Recorder.DurationFrozenWhilePaused | internal/recorder/recorder.go:247-250 | while paused, the active time is the same at every instant: pause instant − start − paused total |
| Recorder.Recorder.DurationAdvancesWhileRecording | internal/recorder/recorder.go:247 | while recording, the active time advances exactly as the clock does |
| Recorder.Recorder.StopDurationCountsOpenPause | internal/recorder/recorder.go:199-201 | the duration `Stop` records equals the active time plus the pause still open if the session is paused |
| Recorder.Recorder.WriteWavHeader | internal/recorder/recorder.go:321-352 | on success the file starts with the header for the given size and its offset is unchanged; on a closed file it fails with "file already closed" |
| Recorder.Recorder.FinalizeWavFile | internal/recorder/recorder.go:355-363 | on success the file becomes `Finalized` of its contents; a `Stat` or write error is returned and leaves the contents unchanged |
| Recorder.Recorder.CreateAudioFileAsWritten | internal/recorder/recorder.go:112-122 | as written: on success the new file holds the placeholder header with its offset still at 0; each failure has its own message and yields no file |
| Recorder.Recorder.CreateAudioFile | internal/recorder/recorder.go:112-122 | as intended: on success the new file holds the placeholder header with its offset just past it; each failure has its own message and yields no file |
| Recorder.Recorder.Start | internal/recorder/recorder.go:99-152 | corrected: an active recorder refuses with "already active" and changes nothing, neither its fields nor the record of what its file holds; otherwise the outcome is that of `Opened` for each creation, header and record result, with the offset past the header; the invariant holds |
| Recorder.Recorder.StartAsWritten | internal/recorder/recorder.go:99-152 | as written: the same guard, refusal that changes nothing, and outcomes as `Start`, with the offset left at 0 and the session's audio going over the header; the invariant holds |
| Recorder.Recorder.Open | internal/recorder/recorder.go:107-142 | from an inactive recorder: the file id is set, a failed creation or header write reports its message, and success continues as `Begin` |
| Recorder.Recorder.Begin | internal/recorder/recorder.go:124-142 | the session takes the file with its header, zero audio, the start instant and zero pause; a failed record closes the file and leaves the state; a created record makes it Recording with that id |
| Recorder.Recorder.Adopt | internal/recorder/recorder.go:124-128 | the session's file, start instant and zero pause total are set, and the file holds what the invariant expects of a session with no audio yet |
| Recorder.Recorder.Pause | internal/recorder/recorder.go:155-166 | only Recording can pause: it records the pause instant and keeps the active time; anything else fails with "not recording" and changes nothing |
| Recorder.Recorder.Resume | internal/recorder/recorder.go:169-180 | only Paused can resume: the pause span joins the paused total and the active time is kept; anything else fails with "not paused" and changes nothing |
| Recorder.Recorder.DeliverFrames | internal/recorder/recorder.go:277-290 | a recording session writes the batch at the file's offset and advances it; the batch follows the header and earlier audio, or, as written, lies over the header after the earlier audio; paused or other states, and failed writes, change nothing; the recorder's fields never change, and the file is never closed here |
| Recorder.Recorder.CloseOutFile | internal/recorder/recorder.go:203-218 | finalise, `Stat`, `Close` in order, each failure with its message; on success the file is finalised and closed, and the size reported is its final length |
| Recorder.Recorder.Stop | internal/recorder/recorder.go:183-229 | inactive: "not active"; already signalled: panic; both leave the recorder and its file untouched; otherwise the file's offset is kept and each file failure with its message and the session left active; success sends the completion update (whole seconds of now − start − paused total, the final size, the id) and on a database success becomes Stopped with no file |
| Recorder.Recorder.FinishStop | internal/recorder/recorder.go:191-228 | the same outcomes as `Stop` for an active session that was not yet told to stop; the file's offset is kept |
| Recorder.CompletionReply | internal/recorder/recorder.go:220-223 | `Stop` succeeds exactly when the completion update reached a row, and the reply is never a panic |
| Recorder.CompleteRecord | internal/recorder/recorder.go:220-223 | the completion statement carries the duration, the size, "completed", the instant and the id; the reply wraps the database's error |
| Recorder.CaptureWithPause | internal/recorder/recorder.go:277-290 | start, audio a, pause, audio b, resume, audio c: the file holds the header then a and c (b is dropped), or, as written, a and c laid over the header; the paused total is the pause span |
| Recorder.StopSession | internal/recorder/recorder.go:183-229 | when every call succeeds, `Stop` finalises the file, ends Stopped, and sends the active seconds, the final size and the record id |
| Recorder.SessionThroughStop | internal/recorder/recorder.go:99-229 | a whole successful session ends with the finalisation of what was written, and the database gets the active time without the pause and the file's size |
| Recorder.RecordSession | internal/recorder/recorder.go:183-229 | corrected: a whole successful session yields the header for \|a\|+\|c\| followed by a and c, payload field \|a\|+\|c\|, and an active time that excludes the pause |
| Recorder.RecordSessionAsWritten | internal/recorder/recorder.go:99-229 | as written: under 44 audio bytes the file is a bare header declaring 0; otherwise it is the header for \|a\|+\|c\|−44 followed by a and c less their first 44 bytes; the database gets the file's size |
| Recorder.AsWrittenFinalFile | internal/recorder/recorder.go:350 | as written: audio shorter than 44 bytes leaves only a header; longer audio loses its first 44 bytes and declares a payload 44 bytes short; the file is never shorter than 44 bytes |
| Recorder.IntendedFinalFile | internal/recorder/recorder.go:355-363 | for a header followed by audio, finalisation keeps every audio byte and declares its exact length and chunk size |
| Recorder.ContinueOverwrite | internal/recorder/recorder.go:285 | as written: further writes from where the overwriting audio ended equal overwriting the header with all of the audio |
| RecordingRepository.CollectField | internal/db/recording_repository.go:207-210 | a set field appends its clause and value, an unset field appends nothing |
| RecordingRepository.AssignmentsUnfold | internal/db/recording_repository.go:207-230 | the assignments are the six fields' contributions, in order |
| RecordingRepository.CollectUpdates | internal/db/recording_repository.go:207-230 | the collected clauses and arguments are those of `Assignments` |
| RecordingRepository.JoinStep | internal/db/recording_repository.go:237-239 | each loop step extends the join by a separator and the next clause |
| RecordingRepository.Update | internal/db/recording_repository.go:201-258 | no field set: "no fields to update" and nothing executed; otherwise the query is prefix + joined clauses + " WHERE id = ?" with the values then the id; each database answer maps to its error or success |
| RecordingRepository.AssignmentsFollowParams | internal/db/recording_repository.go:207-230 | every clause is for a set field with that field's value, every set field has its clause, and clauses follow the fixed column order |
| RecordingRepository.EmptyUpdateExactly | internal/db/recording_repository.go:232-234 | the update is empty exactly when no field is set |
| RecordingRepository.PlaceholdersMatchArgs | internal/db/recording_repository.go:236-241 | the query has as many `?` as bound arguments |
| RecordingRepository.UpdatePlaceholders | internal/db/recording_repository.go:236-241 | every statement `Update` builds has one argument per placeholder |
| RecordingRepository.CompletionAssignments | internal/db/recording_repository.go:283-288 | the completion update sets duration, size, status "completed" and completion time, and nothing else |
| RecordingRepository.CompletionStatement | internal/db/recording_repository.go:280-289 | the completion query text, with the values and the id in placeholder order |
| RecordingRepository.MarkCompleted | internal/db/recording_repository.go:280-289 | executes exactly the completion statement and reports the database's answer as `Update` does |
| Cli.TruncRem | cmd/recorder/main.go:95-96 | the remainder has the dividend's sign, is smaller than the divisor, and recombines with the quotient to the dividend |
| Cli.Digits | cmd/recorder/main.go:99-101 | the result is only decimal digits, one of them exactly for values below 10, with no leading zero for a positive value |
| Cli.DigitsRoundTrip | cmd/recorder/main.go:99-101 | reading the digits back gives the number |
| Cli.Pad2 | cmd/recorder/main.go:99-101 | no contract of its own: `Pad2Digits` states what `%02d` prints |
| Cli.Pad2Digits | cmd/recorder/main.go:99-101 | `%02d` of a value below 100 is exactly two digits, a larger value more, with no leading zero from 10 on, and the digits read back as the value |
| Cli.Hours | cmd/recorder/main.go:94 | no contract of its own: `FieldsOfDuration` states it |
| Cli.Minutes | cmd/recorder/main.go:95 | no contract of its own: `FieldsOfDuration` states it |
| Cli.SecondsField | cmd/recorder/main.go:96 | no contract of its own: `FieldsOfDuration` states it |
| Cli.FieldsOfDuration | cmd/recorder/main.go:93-96 | for a non-negative duration, minutes and seconds lie below 60, and hours×3600 + minutes×60 + seconds is the whole seconds; hours are positive exactly from one hour on |
| Cli.FormatDuration | cmd/recorder/main.go:93-102 | no contract of its own: `FormatDurationReadsBack` states what it prints |
| Cli.FormatDurationReadsBack | cmd/recorder/main.go:93-102 | below an hour the text is `MM:SS`, from an hour on it ends in `:MM:SS` after the hours, which take exactly two characters below 100 hours and have no leading zero from 10 hours on; every character other than the colons is a decimal digit, and each field reads back as its value |

## Left out

- Audio capture through the malgo device (internal/recorder/recorder.go:256-318) is not modelled. This covers device set-up, start, stop and the stop-signal wait. Only the write rule of its frame callback is modelled, as `DeliverFrames`.
- Recorder.Recorder.DeliverFrames: besides the state check, its body also checks that `Stop` has not yet signalled. This stands for the capture device having been stopped.
  - The mutex, the goroutine and the wait group are concurrency, which the model does not capture.
  - So is `Stop` releasing the lock while it waits.
  - Frames racing with `Stop` between the signal and the device stopping are not modelled.
- Recorder.Recorder.Start: writes the placeholder header with `Write`, the corrected offset of Findings. `StartAsWritten` is the code's `WriteAt`.
- Recorder.Recorder.DeliverFrames: in a session opened by `Start`, the batch follows the header, as corrected. In a session opened by `StartAsWritten`, it lies over the header, as the code does.
- Recorder.RecordSession: models the corrected offset. `RecordSessionAsWritten` is the same session as the code is written.
- `GetState` only reads the lock-protected `state` field. The model reads the `state` field directly.
- The lock itself is not modelled. Each command is one atomic step.
- The file name, the directory and the uuid are not modelled (internal/recorder/recorder.go:108-110). The file id is an input (`fileId`), and the path and name are not modelled.
- `audioBuffer` is not modelled (internal/recorder/recorder.go:127). It is allocated and never used.
- Partial writes are not modelled: a write either stores the whole buffer or fails with nothing stored.
- The contents of the row `Create` inserts are not modelled. The record's creation is an input giving its id or an error.
- The other repository methods and other repositories are not modelled.
- The SQL driver is not modelled. The database's answer to `Exec` and `RowsAffected` is an input.
- `time.Now` in `MarkCompleted` is an input (`now`); times are integers of nanoseconds.
- GoTime.WholeSeconds and the Cli fields: `d.Seconds()`, `d.Minutes()` and `d.Hours()` are float64 values that the code truncates. The model uses exact integer quotients. They differ only for durations of more than about 170 days, in the last nanoseconds before a unit boundary, where float rounding can reach the next integer.
- Go's 64-bit integers (ids, sizes, durations) are unbounded integers here. Overflow of `int64` is not modelled. The uint32 and uint16 conversions of the header are modelled.
- Error values are modelled as their message strings. `%w` wrapping is string concatenation.
- Files.ErrClosed: Go's `*os.File` methods wrap `os.ErrClosed` in a `*PathError`, so the real text is "write <path>: file already closed" or "stat <path>: file already closed". The model uses the bare "file already closed", since the path is not modelled. A valid session never reaches this path.
- The `fmt.Printf` with which the capture callback reports a failed write (internal/recorder/recorder.go:287) is output only. The model ignores the error, and `DeliverFrames` leaves the file and the recorder unchanged.

## Findings

| source | as written | input that shows it | evidently intended | confidence | as-written member | corrected member |
|---|---|---|---|---|---|---|
| internal/recorder/recorder.go:350 | `Start` writes the placeholder header with `WriteAt(header, 0)`, which does not move the file offset, so the first audio `Write` lands at offset 0 over the header; finalisation then writes the header back over the first 44 audio bytes | start, deliver 3200 bytes, pause, deliver 1600 bytes (dropped), resume, deliver 1600 bytes, stop: the file is 4800 bytes, its payload field says 4756 and the first 44 audio bytes are gone; a session with under 44 audio bytes keeps none | the header followed by all 4800 audio bytes, payload field 4800 | not executed | Recorder.RecordSessionAsWritten | Recorder.RecordSession |

=== FILE: files.dfy ===
/** The output file as the recorder sees it through Go's `*os.File`: a byte
    sequence with a current offset. `Write` writes at the offset and moves
    it past the written bytes; `WriteAt(buf, 0)` overwrites the start and
    leaves the offset where it was (it is a positioned write); `Stat`
    reports the size; `Close` closes the file. The operating system's
    answer to each call is an input (`io`); a failed call leaves the
    contents as they were. Every operation on a closed file fails, as
    `os.ErrClosed` does. */
module Files {
  import opened Outcomes
  import opened Wav

  const ErrClosed := "file already closed"

  /** `n` zero bytes: the hole a write past the end leaves. */
  function Zeros(n: nat): (z: seq<byte>)
    ensures |z| == n && forall i :: 0 <= i < n ==> z[i] == 0
  {
    seq(n, i => 0)
  }

  /** The contents after writing `buf` at offset `off`: those bytes are
      replaced, the file grows when the write runs past its end, and every
      other byte is kept. */
  function Splice(data: seq<byte>, off: nat, buf: seq<byte>): (r: seq<byte>)
    ensures |r| == if off + |buf| > |data| then off + |buf| else |data|
    ensures r[off..off + |buf|] == buf
    ensures forall i :: 0 <= i < off && i < |data| ==> r[i] == data[i]
    ensures forall i :: off + |buf| <= i < |data| ==> r[i] == data[i]
    ensures forall i :: |data| <= i < off ==> r[i] == 0
  {
    var front := if off <= |data| then data[..off] else data + Zeros(off - |data|);
    var back := if off + |buf| < |data| then data[off + |buf|..] else [];
    assert |front| == off;
    front + buf + back
  }

  /** Writing at offset 0 is the overwrite `WriteAt(buf, 0)` performs. */
  lemma SpliceAtStart(data: seq<byte>, buf: seq<byte>)
    ensures Splice(data, 0, buf) == OverwriteAtStart(data, buf)
  {
  }

  /** Writing at the end of the contents appends. */
  lemma SpliceAtEnd(data: seq<byte>, buf: seq<byte>)
    ensures Splice(data, |data|, buf) == data + buf
  {
  }

  class AudioFile {
    var data: seq<byte>
    var pos: nat
    var closed: bool

    /** `os.Create` succeeded: a new, empty, open file at offset 0. */
    constructor ()
      ensures data == [] && pos == 0 && !closed
    {
      data := [];
      pos := 0;
      closed := false;
    }

    /** `file.Write(buf)`: writes at the current offset and advances it. */
    method Write(buf: seq<byte>, io: Outcome) returns (r: Outcome)
      modifies this
      ensures closed == old(closed)
      ensures r == if old(closed) then Fail(ErrClosed) else io
      ensures data == if r.Pass? then Splice(old(data), old(pos), buf) else old(data)
      ensures pos == if r.Pass? then old(pos) + |buf| else old(pos)
    {
      if closed {
        r := Fail(ErrClosed);
      } else {
        r := io;
        if io.Pass? {
          data := Splice(data, pos, buf);
          pos := pos + |buf|;
        }
      }
    }

    /** `file.WriteAt(buf, 0)`: the offset does not move. */
    method WriteAtStart(buf: seq<byte>, io: Outcome) returns (r: Outcome)
      modifies this
      ensures closed == old(closed) && pos == old(pos)
      ensures r == if old(closed) then Fail(ErrClosed) else io
      ensures data == if r.Pass? then OverwriteAtStart(old(data), buf) else old(data)
    {
      if closed {
        r := Fail(ErrClosed);
      } else {
        r := io;
        if io.Pass? {
          data := OverwriteAtStart(data, buf);
        }
      }
    }

    /** `file.Stat().Size()`. */
    method Size(io: Outcome) returns (r: Result<nat>)
      ensures closed ==> r == Err(ErrClosed)
      ensures !closed && io.Fail? ==> r == Err(io.msg)
      ensures !closed && io.Pass? ==> r == Ok(|data|)
    {
      if closed {
        r := Err(ErrClosed);
      } else if io.Fail? {
        r := Err(io.msg);
      } else {
        r := Ok(|data|);
      }
    }

    /** `file.Close()`: the file is closed afterwards even when the call
        reports an error. */
    method Close(io: Outcome) returns (r: Outcome)
      modifies this
      ensures closed && data == old(data) && pos == old(pos)
      ensures r == if old(closed) then Fail(ErrClosed) else io
    {
      r := if closed then Fail(ErrClosed) else io;
      closed := true;
    }
  }
}

=== FILE: format_duration.dfy ===
/** The command-line front end's display of the recording time: `HH:MM:SS`
    once an hour has passed, `MM:SS` before, each field printed with `%02d`. */
module Cli {
  import opened GoTime

  /** Go's `%`: the remainder takes the sign of the dividend. */
  function TruncRem(a: int, b: nat): (r: int)
    requires 0 < b
    ensures a >= 0 ==> 0 <= r < b
    ensures a < 0 ==> -(b as int) < r <= 0
    ensures a == TruncDiv(a, b) * b + r
  {
    a - TruncDiv(a, b) * b
  }

  function DigitChar(n: nat): (c: char)
    requires n < 10
    ensures '0' <= c <= '9' && c as int - '0' as int == n
  {
    ['0', '1', '2', '3', '4', '5', '6', '7', '8', '9'][n]
  }

  predicate IsDigit(c: char)
  {
    '0' <= c <= '9'
  }

  /** The decimal digits of `n`, without leading zeros. */
  function Digits(n: nat): (s: string)
    ensures |s| >= 1 && forall i :: 0 <= i < |s| ==> IsDigit(s[i])
    ensures n < 10 <==> |s| == 1
    ensures n > 0 ==> s[0] != '0'
  {
    if n < 10 then [DigitChar(n)] else Digits(n / 10) + [DigitChar(n % 10)]
  }

  /** `%02d`: at least two characters, zero-padded; a negative value is
      its sign followed by its digits. */
  function Pad2(n: int): (s: string)
  {
    if n < 0 then "-" + Digits(-n)
    else if n < 10 then "0" + Digits(n)
    else Digits(n)
  }

  /** The value of a string of decimal digits. */
  function ValueOf(s: string): nat
  {
    if |s| == 0 then 0
    else ValueOf(s[..|s| - 1]) * 10 + (if IsDigit(s[|s| - 1]) then s[|s| - 1] as int - '0' as int else 0)
  }

  /** Reading the digits back gives the number. */
  lemma {:induction false} DigitsRoundTrip(n: nat)
    ensures ValueOf(Digits(n)) == n
    decreases n
  {
    if n >= 10 {
      DigitsRoundTrip(n / 10);
      var s := Digits(n);
      assert s[..|s| - 1] == Digits(n / 10);
    }
  }

  /** A non-negative value below 100 takes exactly two digits, a larger one
      more; either way the digits read back as the value. */
  lemma {:induction false} Pad2Digits(n: nat)
    ensures var s := Pad2(n);
      && (n < 100 <==> |s| == 2)
      && (n >= 10 ==> s[0] != '0')
      && (forall i :: 0 <= i < |s| ==> IsDigit(s[i]))
      && ValueOf(s) == n
  {
    DigitsRoundTrip(n);
    if n < 10 {
      var s := Pad2(n);
      assert s[..1] == "0";
      assert ValueOf(s[..1]) == 0;
    } else {
      assert Digits(n) == Digits(n / 10) + [DigitChar(n % 10)];
      if n < 100 {
        assert |Digits(n / 10)| == 1;
      } else {
        assert |Digits(n / 10)| >= 2;
      }
    }
  }

  /** The three fields `formatDuration` prints. */
  function Hours(d: int): int { TruncDiv(d, Hour) }
  function Minutes(d: int): int { TruncRem(TruncDiv(d, Minute), 60) }
  function SecondsField(d: int): int { TruncRem(WholeSeconds(d), 60) }

  /** `formatDuration`. */
  function FormatDuration(d: int): (t: string)
  {
    if Hours(d) > 0 then Pad2(Hours(d)) + ":" + Pad2(Minutes(d)) + ":" + Pad2(SecondsField(d))
    else Pad2(Minutes(d)) + ":" + Pad2(SecondsField(d))
  }

  /** For a non-negative duration the fields are hours, minutes below 60
      and seconds below 60, and together they are the duration's whole
      seconds. */
  lemma FieldsOfDuration(d: int)
    requires d >= 0
    ensures 0 <= Minutes(d) < 60 && 0 <= SecondsField(d) < 60 && Hours(d) >= 0
    ensures Hours(d) * 3600 + Minutes(d) * 60 + SecondsField(d) == WholeSeconds(d)
    ensures Hours(d) > 0 <==> d >= Hour
  {
    var s := d / Second;
    assert d / Minute == s / 60 by { DivDiv(d, Second, 60); }
    assert d / Hour == s / 3600 by { DivDiv(d, Second, 3600); }
    assert s / 3600 == (s / 60) / 60 by { DivDiv(s, 60, 60); }
  }

  /** A quotient is determined by any remainder in range. */
  lemma DivUnique(a: nat, d: nat, q: nat, r: nat)
    requires 0 < d && r < d && a == q * d + r
    ensures a / d == q
  {
    var q', r' := a / d, a % d;
    assert a == q' * d + r';
    if q' > q {
      assert (q + 1) * d == q * d + d;
      MulLe(q + 1, q', d);
    } else if q' < q {
      assert (q' + 1) * d == q' * d + d;
      MulLe(q' + 1, q, d);
    }
  }

  lemma MulLe(x: nat, y: nat, d: nat)
    requires x <= y
    ensures x * d <= y * d
  {
    assert y * d == x * d + (y - x) * d;
  }

  /** Dividing twice is dividing by the product. */
  lemma DivDiv(a: nat, b: nat, c: nat)
    requires 0 < b && 0 < c
    ensures a / b / c == a / (b * c)
  {
    var q, r := a / b, a % b;
    var q2, r2 := q / c, q % c;
    assert a == q * b + r;
    assert q == q2 * c + r2;
    Regroup(q, q2, r2, b, c, r);
    RemainderBelow(r2, b, c, r);
    DivUnique(a, b * c, q2, r2 * b + r);
  }

  lemma Regroup(q: nat, q2: nat, r2: nat, b: nat, c: nat, r: nat)
    requires q == q2 * c + r2
    ensures q * b + r == q2 * (b * c) + (r2 * b + r)
  {
    assert q * b == q2 * c * b + r2 * b;
    assert q2 * c * b == q2 * (b * c);
  }

  lemma RemainderBelow(r2: nat, b: nat, c: nat, r: nat)
    requires r2 < c && r < b
    ensures 0 < b * c && r2 * b + r < b * c
  {
    MulLe(r2 + 1, c, b);
    assert (r2 + 1) * b == r2 * b + b;
  }

  /** The display reads back: before an hour it is `MM:SS`; from an hour on
      it ends in `:MM:SS` after the hours; each field's digits give its value. */
  lemma {:induction false} FormatDurationReadsBack(d: int)
    requires d >= 0
    ensures var t := FormatDuration(d);
      && (d < Hour ==>
            |t| == 5 && t[2] == ':'
            && (forall i :: 0 <= i < 5 && i != 2 ==> IsDigit(t[i]))
            && ValueOf(t[..2]) == Minutes(d) && ValueOf(t[3..]) == SecondsField(d))
      && (d >= Hour ==>
            |t| >= 8 && t[|t| - 6] == ':' && t[|t| - 3] == ':'
            && (Hours(d) < 100 <==> |t| == 8) && (Hours(d) >= 10 ==> t[0] != '0')
            && (forall i :: 0 <= i < |t| && i != |t| - 6 && i != |t| - 3 ==> IsDigit(t[i]))
            && ValueOf(t[..|t| - 6]) == Hours(d)
            && ValueOf(t[|t| - 5..|t| - 3]) == Minutes(d)
            && ValueOf(t[|t| - 2..]) == SecondsField(d))
  {
    FieldsOfDuration(d);
    var hh, mm, ss := Pad2(Hours(d)), Pad2(Minutes(d)), Pad2(SecondsField(d));
    Pad2Digits(Minutes(d));
    Pad2Digits(SecondsField(d));
    if d < Hour {
      assert FormatDuration(d) == mm + ":" + ss;
      TwoFieldText(mm, ss);
    } else {
      Pad2Digits(Hours(d));
      assert FormatDuration(d) == hh + ":" + mm + ":" + ss;
      ThreeFieldText(hh, mm, ss);
    }
  }

  /** `MM:SS` from two two-digit fields: digits everywhere but the colon,
      and each field where it belongs. */
  lemma TwoFieldText(mm: string, ss: string)
    requires |mm| == 2 && |ss| == 2
    requires forall i :: 0 <= i < 2 ==> IsDigit(mm[i]) && IsDigit(ss[i])
    ensures var t := mm + ":" + ss;
      && |t| == 5 && t[2] == ':' && t[..2] == mm && t[3..] == ss
      && (forall i :: 0 <= i < 5 && i != 2 ==> IsDigit(t[i]))
  {
    var t := mm + ":" + ss;
    forall i | 0 <= i < 5 && i != 2
      ensures IsDigit(t[i])
    {
      if i < 2 { assert t[i] == mm[i]; } else { assert t[i] == ss[i - 3]; }
    }
    assert t[..2] == mm && t[3..] == ss;
  }

  /** `H…:MM:SS` from an hours field of digits and two two-digit fields:
      digits everywhere but the two colons, and each field where it belongs. */
  lemma ThreeFieldText(hh: string, mm: string, ss: string)
    requires |hh| >= 1 && |mm| == 2 && |ss| == 2
    requires forall i :: 0 <= i < |hh| ==> IsDigit(hh[i])
    requires forall i :: 0 <= i < 2 ==> IsDigit(mm[i]) && IsDigit(ss[i])
    ensures var t := hh + ":" + mm + ":" + ss;
      && |t| == |hh| + 6 && t[0] == hh[0] && t[|t| - 6] == ':' && t[|t| - 3] == ':'
      && t[..|t| - 6] == hh && t[|t| - 5..|t| - 3] == mm && t[|t| - 2..] == ss
      && (forall i :: 0 <= i < |t| && i != |t| - 6 && i != |t| - 3 ==> IsDigit(t[i]))
  {
    var t := hh + ":" + mm + ":" + ss;
    var n := |hh|;
    forall i | 0 <= i < |t| && i != |t| - 6 && i != |t| - 3
      ensures IsDigit(t[i])
    {
      if i < n { assert t[i] == hh[i]; }
      else if i < n + 3 { assert t[i] == mm[i - n - 1]; }
      else { assert t[i] == ss[i - n - 4]; }
    }
    assert t[..|t| - 6] == hh;
    assert t[|t| - 5..|t| - 3] == mm;
    assert t[|t| - 2..] == ss;
  }
}

=== FILE: go_time.dfy ===
/** The parts of Go's `time.Duration` arithmetic the recorder relies on.
    A duration is a count of nanoseconds. */
module GoTime {

  const Second: nat := 1_000_000_000
  const Minute: nat := 60 * Second
  const Hour: nat := 60 * Minute

  /** Go's quotient of a signed integer by a positive one, which truncates
      toward zero (Dafny's `/` rounds toward minus infinity): `q` whole
      divisors fit in `a`, and one more would pass it; for a negative `a`
      the same holds of `-a` and `-q`. */
  function TruncDiv(a: int, b: nat): (q: int)
    requires 0 < b
    ensures a >= 0 ==> 0 <= q && q * b <= a < (q + 1) * b
    ensures a < 0 ==> q <= 0 && -a - b < -q * b <= -a
  {
    var q := if a >= 0 then a / b else -((-a) / b);
    TruncationBounds(a, b, q);
    q
  }

  /** The quotient rounded toward zero lies in the bounds `TruncDiv` states. */
  lemma TruncationBounds(a: int, b: nat, q: int)
    requires 0 < b && q == if a >= 0 then a / b else -((-a) / b)
    ensures a >= 0 ==> 0 <= q && q * b <= a < (q + 1) * b
    ensures a < 0 ==> q <= 0 && -a - b < -q * b <= -a
  {
    var x := if a >= 0 then a / b else (-a) / b;
    DivBounds(if a >= 0 then a else -a, b);
    if a < 0 {
      assert -q == x;
    }
  }

  /** Dafny's quotient of a non-negative number lies in the usual bounds. */
  lemma DivBounds(a: nat, b: nat)
    requires 0 < b
    ensures a / b * b <= a < (a / b + 1) * b
  {
    var q := a / b;
    assert a == q * b + a % b;
    assert (q + 1) * b == q * b + b;
  }

  /** `int(d.Seconds())`: the whole seconds of `d`, truncated toward zero as
      Go's float-to-int conversion does. */
  function WholeSeconds(d: int): (s: int)
    ensures d >= 0 ==> 0 <= s && s * Second <= d < (s + 1) * Second
    ensures d < 0 ==> s <= 0 && -d - Second < -s * Second <= -d
  {
    TruncDiv(d, Second)
  }
}

=== FILE: outcomes.dfy ===
/** Small failure-carrying datatypes shared by the modules of the recorder model. */
module Outcomes {

  /** A value that may be absent, as a Go pointer field that may be nil. */
  datatype Option<+T> = None | Some(value: T)

  /** The result of an operation that returns only a Go `error`. */
  datatype Outcome = Pass | Fail(msg: string)

  /** The result of an operation that returns a value and a Go `error`. */
  datatype Result<+T> = Ok(value: T) | Err(msg: string)
}

=== FILE: recorder.dfy ===
/** The recording controller: a state machine over Idle, Recording, Paused
    and Stopped that owns the output WAV file, the timing of the session and
    the database record of it. Time is an input: every command receives the
    current instant `now` in nanoseconds from a monotonic clock. The answers
    of the operating system and of the database are inputs too. */
module Recorder {
  import opened Outcomes
  import opened Wav
  import opened Files
  import opened GoTime
  import RecordingRepository

  datatype RecorderState = Idle | Recording | Paused | Stopped

  /** The integer constant (`iota`) behind each state. */
  function Code(s: RecorderState): (c: int)
    ensures 0 <= c < 4
    ensures c == 0 <==> s == Idle
    ensures c == 3 <==> s == Stopped
  {
    match s
    case Idle => 0
    case Recording => 1
    case Paused => 2
    case Stopped => 3
  }

  /** `RecorderState.String` on the underlying integer: the four constants
      have their own names, every other value is "unknown". */
  function StateString(code: int): (name: string)
    ensures name == "unknown" <==> code < 0 || 3 < code
  {
    if code == 0 then "idle"
    else if code == 1 then "recording"
    else if code == 2 then "paused"
    else if code == 3 then "stopped"
    else "unknown"
  }

  /** Different states have different codes and different names. */
  lemma StateNamesDistinct(s: RecorderState, t: RecorderState)
    requires s != t
    ensures Code(s) != Code(t)
    ensures StateString(Code(s)) != StateString(Code(t))
  {
  }

  /** What the operating system and the database answer during `Start`:
      `os.Create`, the header's `WriteAt`, and the record's creation (its id). */
  datatype StartIo = StartIo(create: Outcome, header: Outcome, record: Result<int>)

  /** What they answer during `Stop`: the `Stat` inside finalisation, the
      header's `WriteAt`, the second `Stat`, `Close`, the database's answer
      to the completion update, and the completion instant it records. */
  datatype StopIo = StopIo(
    stat: Outcome, header: Outcome, info: Outcome, close: Outcome,
    db: RecordingRepository.ExecOutcome, completedAt: int)

  /** The result of `Stop`: success, an error value, or a run-time panic. */
  datatype Reply = Done | Error(msg: string) | Panic(msg: string)

  /** The recorder's own fields, for stating what a command leaves alone. */
  datatype Snapshot = Snapshot(
    state: RecorderState, file: AudioFile?, currentID: int, fileID: string,
    startTime: nat, pauseTime: nat, pausedTotal: nat, stopSignalled: bool)

  class Recorder {
    const format: AudioFormat
    var state: RecorderState
    var currentFile: AudioFile?
    var currentID: int
    var fileID: string
    var startTime: nat
    var pauseTime: nat
    var pausedTotal: nat
    /** Whether the session's stop channel has been closed. */
    var stopSignalled: bool
    /** The latest instant a command has seen. */
    ghost var clock: nat
    /** The bytes the capture callback has written since the session began. */
    ghost var delivered: seq<byte>
    /** The header the session's file held before any audio arrived. */
    ghost var header: seq<byte>
    /** Whether the session's audio is written from offset 0 over the
        header, as it is when the session was opened by `StartAsWritten`. */
    ghost var overwrites: bool

    ghost function Current(): Snapshot
      reads this
    {
      Snapshot(state, currentFile, currentID, fileID, startTime, pauseTime, pausedTotal, stopSignalled)
    }

    predicate Active()
      reads this
    {
      state == Recording || state == Paused
    }

    /** An active session has a file; its pauses never exceed the time since
        it started; until it is told to stop, its file is open and holds the
        placeholder header followed by the delivered bytes, with its offset
        at the end, or, when the audio overwrites the header, the delivered
        bytes laid over the header, with its offset just past them. */
    ghost predicate Valid()
      reads this, currentFile
    {
      (state == Paused ==> pauseTime <= clock)
      && (Active() ==>
            currentFile != null
            && startTime + pausedTotal <= (if state == Paused then pauseTime else clock)
            && (!stopSignalled ==>
                  !currentFile.closed && currentFile.data == Written() && currentFile.pos == WrittenEnd()))
    }

    /** What the session's file holds: the header followed by the delivered
        bytes, or, when the audio overwrites the header, those bytes laid
        over it. */
    ghost function Written(): seq<byte>
      reads this
    {
      if overwrites then OverwriteAtStart(header, delivered) else header + delivered
    }

    /** Where the next batch goes: after the header and the delivered bytes,
        or, when the audio overwrites the header, just after those bytes. */
    ghost function WrittenEnd(): nat
      reads this
    {
      if overwrites then |delivered| else |header| + |delivered|
    }

    /** `New`: a zero sample rate selects the default format. */
    constructor (cfg: AudioFormat)
      ensures format == if cfg.sampleRate == 0 then DefaultAudioFormat() else cfg
      ensures state == Idle && currentFile == null && !stopSignalled
      ensures currentID == 0 && fileID == "" && startTime == 0 && pauseTime == 0 && pausedTotal == 0
      ensures clock == 0 && Valid()
    {
      format := if cfg.sampleRate == 0 then DefaultAudioFormat() else cfg;
      state := Idle;
      currentFile := null;
      currentID := 0;
      fileID := "";
      startTime := 0;
      pauseTime := 0;
      pausedTotal := 0;
      stopSignalled := false;
      clock := 0;
      delivered := [];
      header := [];
      overwrites := false;
    }

    /** `GetDuration`: the active time of the session at instant `now`. */
    function GetDuration(now: nat): (d: int)
      reads this
    {
      if state == Idle || state == Stopped then 0
      else
        var elapsed := now - startTime - pausedTotal;
        if state == Paused then elapsed - (now - pauseTime) else elapsed
    }

    /** The active time is never negative, never more than the time since
        the session started, and zero outside a session. */
    lemma DurationInRange(now: nat)
      requires Valid() && clock <= now
      ensures 0 <= GetDuration(now)
      ensures Active() ==> GetDuration(now) <= now - startTime
      ensures !Active() ==> GetDuration(now) == 0
    {
    }

    /** While paused, the active time stands still. */
    lemma DurationFrozenWhilePaused(now1: nat, now2: nat)
      requires state == Paused
      ensures GetDuration(now1) == GetDuration(now2) == pauseTime - startTime - pausedTotal
    {
    }

    /** While recording, the active time advances with the clock. */
    lemma DurationAdvancesWhileRecording(now1: nat, now2: nat)
      requires state == Recording
      ensures GetDuration(now2) - GetDuration(now1) == now2 - now1
    {
    }

    /** The duration `Stop` reports, `now - startTime - pausedTotal`, is the
        active time plus the pause still open when the session is stopped
        while paused. */
    lemma StopDurationCountsOpenPause(now: nat)
      requires Active()
      ensures now - startTime - pausedTotal == GetDuration(now) + (if state == Paused then now - pauseTime else 0)
    {
    }

    /** `writeWAVHeader`: the header for `dataSize` written at offset 0. */
    method WriteWavHeader(file: AudioFile, dataSize: nat, io: Outcome) returns (r: Outcome)
      requires dataSize < Two32
      modifies file
      ensures r == if old(file.closed) then Fail(ErrClosed) else io
      ensures file.data == if r.Pass? then OverwriteAtStart(old(file.data), HeaderBytes(format, dataSize)) else old(file.data)
      ensures file.pos == old(file.pos) && file.closed == old(file.closed)
    {
      var header := BuildHeader(format, dataSize);
      r := file.WriteAtStart(header, io);
    }

    /** `finalizeWAVFile`: rewrites the header for the file's current length. */
    method FinalizeWavFile(statIo: Outcome, writeIo: Outcome) returns (r: Outcome)
      requires currentFile != null
      modifies currentFile
      ensures old(currentFile.closed) ==> r == Fail(ErrClosed)
      ensures !old(currentFile.closed) && statIo.Fail? ==> r == statIo
      ensures !old(currentFile.closed) && statIo.Pass? ==> r == writeIo
      ensures currentFile.data == if r.Pass? then Finalized(format, old(currentFile.data)) else old(currentFile.data)
      ensures currentFile.pos == old(currentFile.pos) && currentFile.closed == old(currentFile.closed)
    {
      var file := currentFile;
      var info := file.Size(statIo);
      if info.Err? {
        return Fail(info.msg);
      }
      var dataSize := ToUint32(info.value - HeaderSize);
      assert dataSize == FinalPayloadSize(file.data);
      r := WriteWavHeader(file, dataSize, writeIo);
    }

    /** The file-creating part of `Start` as the code is written: `os.Create`,
        then the placeholder header through `writeWAVHeader`, whose `WriteAt`
        leaves the offset at 0, so the first audio written lands on the
        header (see `AsWrittenFinalFile`). A file whose header cannot be
        written is closed and dropped. */
    method CreateAudioFileAsWritten(create: Outcome, headerIo: Outcome) returns (file: AudioFile?, r: Outcome)
      ensures create.Fail? ==> r == Fail("failed to create audio file: " + create.msg) && file == null
      ensures create.Pass? && headerIo.Fail? ==> r == Fail("failed to write WAV header: " + headerIo.msg) && file == null
      ensures create.Pass? && headerIo.Pass? ==>
        && r == Pass && file != null && fresh(file)
        && file.data == HeaderBytes(format, 0) && file.pos == 0 && !file.closed
    {
      if create.Fail? {
        return null, Fail("failed to create audio file: " + create.msg);
      }
      var f := new AudioFile();
      var err := WriteWavHeader(f, 0, headerIo);
      if err.Fail? {
        var _ := f.Close(Pass);
        return null, Fail("failed to write WAV header: " + err.msg);
      }
      OverwriteEmpty(HeaderBytes(format, 0));
      file, r := f, Pass;
    }

    /** The file-creating part of `Start` as intended: the same steps, but
        the placeholder header is written with `Write`, so the offset ends
        just past it and the audio follows the header. */
    method CreateAudioFile(create: Outcome, headerIo: Outcome) returns (file: AudioFile?, r: Outcome)
      ensures create.Fail? ==> r == Fail("failed to create audio file: " + create.msg) && file == null
      ensures create.Pass? && headerIo.Fail? ==> r == Fail("failed to write WAV header: " + headerIo.msg) && file == null
      ensures create.Pass? && headerIo.Pass? ==>
        && r == Pass && file != null && fresh(file)
        && file.data == HeaderBytes(format, 0) && file.pos == HeaderSize && !file.closed
    {
      if create.Fail? {
        return null, Fail("failed to create audio file: " + create.msg);
      }
      var f := new AudioFile();
      var placeholder := BuildHeader(format, 0);
      SpliceAtEnd([], placeholder);
      var err := f.Write(placeholder, headerIo);
      if err.Fail? {
        var _ := f.Close(Pass);
        return null, Fail("failed to write WAV header: " + err.msg);
      }
      file, r := f, Pass;
    }

    /** `Start`: opens a new session from Idle or Stopped, with the
        placeholder header written so that the audio follows it. */
    method Start(fileId: string, now: nat, io: StartIo) returns (r: Outcome)
      requires Valid() && clock <= now
      modifies this
      ensures Valid() && clock == now
      ensures old(Active()) ==>
        && r == Fail("recorder is already active") && Current() == old(Current())
        && delivered == old(delivered) && header == old(header) && overwrites == old(overwrites)
      ensures !old(Active()) ==> Opened(old(Current()), fileId, now, io, false, r)
      ensures !old(Active()) && io.create.Pass? && io.header.Pass? ==> fresh(currentFile)
    {
      clock := now;
      if state != Idle && state != Stopped {
        return Fail("recorder is already active");
      }
      r := Open(fileId, now, io, false);
    }

    /** `Start` as the code is written: the placeholder header goes in with
        `WriteAt`, so the file's offset stays at 0 and the session's audio
        is written over the header. */
    method StartAsWritten(fileId: string, now: nat, io: StartIo) returns (r: Outcome)
      requires Valid() && clock <= now
      modifies this
      ensures Valid() && clock == now
      ensures old(Active()) ==>
        && r == Fail("recorder is already active") && Current() == old(Current())
        && delivered == old(delivered) && header == old(header) && overwrites == old(overwrites)
      ensures !old(Active()) ==> Opened(old(Current()), fileId, now, io, true, r)
      ensures !old(Active()) && io.create.Pass? && io.header.Pass? ==> fresh(currentFile)
    {
      clock := now;
      if state != Idle && state != Stopped {
        return Fail("recorder is already active");
      }
      r := Open(fileId, now, io, true);
    }

    /** What `Start` does from Idle or Stopped, given the recorder's fields
        `before` it: each failure is reported with its wrapped message; once
        the header is written the session's file and timing are in place,
        the offset past the header or, `asWritten`, still at 0; a failure to
        create the database record closes the file but leaves the state as
        it was. */
    ghost predicate Opened(before: Snapshot, fileId: string, now: nat, io: StartIo, asWritten: bool, r: Outcome)
      reads this, currentFile
    {
      && (io.create.Fail? ==>
            r == Fail("failed to create audio file: " + io.create.msg) && Current() == before.(fileID := fileId))
      && (io.create.Pass? && io.header.Fail? ==>
            r == Fail("failed to write WAV header: " + io.header.msg) && Current() == before.(fileID := fileId))
      && (io.create.Pass? && io.header.Pass? ==>
            && currentFile != null
            && currentFile.data == HeaderBytes(format, 0)
            && currentFile.pos == (if asWritten then 0 else HeaderSize) && overwrites == asWritten
            && fileID == fileId && startTime == now && pausedTotal == 0 && !stopSignalled
            && pauseTime == before.pauseTime && delivered == [] && header == currentFile.data)
      && (io.create.Pass? && io.header.Pass? && io.record.Err? ==>
            && r == Fail("failed to create recording record: " + io.record.msg)
            && currentFile.closed && state == before.state && currentID == before.currentID)
      && (io.create.Pass? && io.header.Pass? && io.record.Ok? ==>
            r == Pass && !currentFile.closed && state == Recording && currentID == io.record.value)
    }

    /** The part of `Start` after its state check; `asWritten` chooses the
        code's header write over the corrected one. */
    method Open(fileId: string, now: nat, io: StartIo, asWritten: bool) returns (r: Outcome)
      requires Valid() && clock == now && !Active()
      modifies this
      ensures Valid() && clock == now
      ensures Opened(old(Current()), fileId, now, io, asWritten, r)
      ensures io.create.Pass? && io.header.Pass? ==> fresh(currentFile)
    {
      fileID := fileId;
      var file;
      if asWritten {
        file, r := CreateAudioFileAsWritten(io.create, io.header);
      } else {
        file, r := CreateAudioFile(io.create, io.header);
      }
      if r.Pass? {
        r := Begin(file, now, io.record, asWritten);
      }
    }

    /** The part of `Start` once the file holds its header: the session's
        file and timing are set, then the database record is created. */
    method Begin(file: AudioFile, now: nat, record: Result<int>, ghost asWritten: bool) returns (r: Outcome)
      requires Valid() && clock == now && !Active() && !file.closed
      requires file.pos == if asWritten then 0 else |file.data|
      modifies this, file
      ensures Valid() && clock == now
      ensures currentFile == file && file.data == old(file.data) && file.pos == old(file.pos)
      ensures header == file.data && delivered == [] && overwrites == asWritten && fileID == old(fileID)
      ensures startTime == now && pausedTotal == 0 && !stopSignalled && pauseTime == old(pauseTime)
      ensures record.Err? ==>
        && r == Fail("failed to create recording record: " + record.msg)
        && file.closed && state == old(state) && currentID == old(currentID)
      ensures record.Ok? ==> r == Pass && !file.closed && state == Recording && currentID == record.value
    {
      Adopt(file, now, asWritten);
      if record.Err? {
        var _ := file.Close(Pass);
        return Fail("failed to create recording record: " + record.msg);
      }
      currentID := record.value;
      state := Recording;
      r := Pass;
    }

    /** The fields `Start` sets once the header is written: the file, with
        no audio yet, and the session's timing. */
    method Adopt(file: AudioFile, now: nat, ghost asWritten: bool)
      requires Valid() && clock == now && !Active() && !file.closed
      requires file.pos == if asWritten then 0 else |file.data|
      modifies this
      ensures Valid() && clock == now && state == old(state) && currentID == old(currentID)
      ensures currentFile == file && file.data == Written() && file.pos == WrittenEnd()
      ensures header == file.data && delivered == [] && overwrites == asWritten && fileID == old(fileID)
      ensures startTime == now && pausedTotal == 0 && !stopSignalled && pauseTime == old(pauseTime)
    {
      header := file.data;
      overwrites := asWritten;
      delivered := [];
      assert header + [] == header;
      OverwriteEmpty(header);
      currentFile := file;
      startTime := now;
      pausedTotal := 0;
      stopSignalled := false;
    }

    /** `Pause`: only a recording session can pause; the active time it has
        reached is kept. */
    method Pause(now: nat) returns (r: Outcome)
      requires Valid() && clock <= now
      modifies this
      ensures Valid() && clock == now && delivered == old(delivered) && header == old(header) && overwrites == old(overwrites)
      ensures old(state) != Recording ==> r == Fail("recorder is not recording") && Current() == old(Current())
      ensures old(state) == Recording ==> r == Pass && Current() == old(Current()).(state := Paused, pauseTime := now)
      ensures GetDuration(now) == old(GetDuration(now))
    {
      clock := now;
      if state != Recording {
        return Fail("recorder is not recording");
      }
      pauseTime := now;
      state := Paused;
      r := Pass;
    }

    /** `Resume`: only a paused session can resume; the pause just ended is
        added to the pause total, so the active time is kept. */
    method Resume(now: nat) returns (r: Outcome)
      requires Valid() && clock <= now
      modifies this
      ensures Valid() && clock == now && delivered == old(delivered) && header == old(header) && overwrites == old(overwrites)
      ensures old(state) != Paused ==> r == Fail("recorder is not paused") && Current() == old(Current())
      ensures old(state) == Paused ==>
        && r == Pass
        && Current() == old(Current()).(state := Recording, pausedTotal := old(pausedTotal) + (now - old(pauseTime)))
      ensures GetDuration(now) == old(GetDuration(now))
    {
      clock := now;
      if state != Paused {
        return Fail("recorder is not paused");
      }
      pausedTotal := pausedTotal + (now - pauseTime);
      state := Recording;
      r := Pass;
    }

    /** The write rule of the capture callback: a batch is written at the
        file's offset only while the session is recording and has not been
        told to stop; a failed write is ignored, as the callback only prints
        it. The audio then follows the header, or, as the code is written,
        lies over it. The file is never closed here. */
    method DeliverFrames(batch: seq<byte>, io: Outcome)
      requires Valid()
      modifies this, currentFile
      ensures Valid() && Current() == old(Current()) && clock == old(clock)
      ensures header == old(header) && overwrites == old(overwrites)
      ensures currentFile != null ==> currentFile.closed == old(currentFile.closed)
      ensures state == Recording && currentFile != null && !stopSignalled && io.Pass? ==>
        && currentFile.data == Splice(old(currentFile.data), old(currentFile.pos), batch)
        && currentFile.pos == old(currentFile.pos) + |batch|
        && delivered == old(delivered) + batch
      ensures state == Recording && currentFile != null && !stopSignalled && io.Pass? && !overwrites ==>
        currentFile.data == old(currentFile.data) + batch
      ensures !(state == Recording && currentFile != null && !stopSignalled && io.Pass?) ==>
        && (currentFile != null ==> currentFile.data == old(currentFile.data) && currentFile.pos == old(currentFile.pos))
        && delivered == old(delivered)
    {
      if state == Recording && currentFile != null && !stopSignalled {
        var file := currentFile;
        if overwrites {
          ContinueOverwrite(header, delivered, batch);
        } else {
          SpliceAtEnd(header + delivered, batch);
          assert header + delivered + batch == header + (delivered + batch);
        }
        var err := file.Write(batch, io);
        if err.Pass? {
          delivered := delivered + batch;
        }
      }
    }

    /** The file steps of `Stop`: finalise the header, read the size, close
        the file; each failure is reported with the message `Stop` returns. */
    method CloseOutFile(io: StopIo) returns (r: Outcome, size: nat)
      requires currentFile != null && !currentFile.closed
      modifies currentFile
      ensures currentFile.pos == old(currentFile.pos)
      ensures io.stat.Fail? || io.header.Fail? ==>
        && r == Fail("failed to finalize WAV file: " + (if io.stat.Fail? then io.stat.msg else io.header.msg))
        && currentFile.data == old(currentFile.data) && !currentFile.closed
      ensures io.stat.Pass? && io.header.Pass? ==>
        currentFile.data == Finalized(format, old(currentFile.data)) && currentFile.closed == io.info.Pass?
      ensures io.stat.Pass? && io.header.Pass? && io.info.Fail? ==>
        r == Fail("failed to get file info: " + io.info.msg)
      ensures io.stat.Pass? && io.header.Pass? && io.info.Pass? ==>
        && size == |currentFile.data|
        && r == if io.close.Fail? then Fail("failed to close file: " + io.close.msg) else Pass
    {
      var err := FinalizeWavFile(io.stat, io.header);
      if err.Fail? {
        return Fail("failed to finalize WAV file: " + err.msg), 0;
      }
      var file := currentFile;
      var info := file.Size(io.info);
      if info.Err? {
        return Fail("failed to get file info: " + info.msg), 0;
      }
      size := info.value;
      err := file.Close(io.close);
      if err.Fail? {
        return Fail("failed to close file: " + err.msg), size;
      }
      r := Pass;
    }

    /** `Stop`: ends an active session, rewrites the header for the final
        length, closes the file and marks the record completed. It signals
        the capture to stop first, so a second `Stop` after a failed one
        closes a closed channel. `executed` is the completion update sent
        to the database. */
    method Stop(now: nat, io: StopIo) returns (r: Reply, ghost executed: Option<RecordingRepository.Statement>)
      requires Valid() && clock <= now
      modifies this, currentFile
      ensures Valid() && clock == now && delivered == old(delivered) && header == old(header) && overwrites == old(overwrites)
      ensures !old(Active()) ==>
        r == Error("recorder is not active") && executed == None && Current() == old(Current())
      ensures old(Active()) && old(stopSignalled) ==>
        r == Panic("close of closed channel") && executed == None && Current() == old(Current())
      ensures (!old(Active()) || old(stopSignalled)) && old(currentFile) != null ==> unchanged(old(currentFile))
      ensures old(Active()) && !old(stopSignalled) ==> old(currentFile).pos == old(currentFile.pos)
      ensures old(Active()) && !old(stopSignalled) && (io.stat.Fail? || io.header.Fail?) ==>
        && r == Error("failed to finalize WAV file: " + (if io.stat.Fail? then io.stat.msg else io.header.msg))
        && executed == None && Current() == old(Current()).(stopSignalled := true)
        && old(currentFile).data == old(currentFile.data) && !old(currentFile).closed
      ensures old(Active()) && !old(stopSignalled) && io.stat.Pass? && io.header.Pass? ==>
        && old(currentFile).data == Finalized(format, old(currentFile.data))
        && old(currentFile).closed == io.info.Pass?
      ensures old(Active()) && !old(stopSignalled) && io.stat.Pass? && io.header.Pass? && io.info.Fail? ==>
        && r == Error("failed to get file info: " + io.info.msg)
        && executed == None && Current() == old(Current()).(stopSignalled := true)
      ensures old(Active()) && !old(stopSignalled) && io.stat.Pass? && io.header.Pass? && io.info.Pass? && io.close.Fail? ==>
        && r == Error("failed to close file: " + io.close.msg)
        && executed == None && Current() == old(Current()).(stopSignalled := true)
      ensures old(Active()) && !old(stopSignalled) && io.stat.Pass? && io.header.Pass? && io.info.Pass? && io.close.Pass? ==>
        && executed == Some(RecordingRepository.Statement(RecordingRepository.CompletionQuery,
             [RecordingRepository.IntValue(WholeSeconds(now - old(startTime) - old(pausedTotal))),
              RecordingRepository.IntValue(|Finalized(format, old(currentFile.data))|),
              RecordingRepository.TextValue("completed"),
              RecordingRepository.TimeValue(io.completedAt),
              RecordingRepository.IntValue(old(currentID))]))
        && r == CompletionReply(io.db)
        && Current() == if r.Done? then old(Current()).(state := Stopped, file := null, stopSignalled := true)
                        else old(Current()).(stopSignalled := true)
    {
      clock := now;
      if state != Recording && state != Paused {
        return Error("recorder is not active"), None;
      }
      if stopSignalled {
        return Panic("close of closed channel"), None;
      }
      r, executed := FinishStop(now, io);
    }

    /** The part of `Stop` after its state checks: from an active session
        that has not been told to stop yet. */
    method FinishStop(now: nat, io: StopIo) returns (r: Reply, ghost executed: Option<RecordingRepository.Statement>)
      requires Valid() && clock == now && Active() && !stopSignalled
      modifies this, currentFile
      ensures Valid() && clock == now && delivered == old(delivered) && header == old(header) && overwrites == old(overwrites)
      ensures old(currentFile).pos == old(currentFile.pos)
      ensures (io.stat.Fail? || io.header.Fail?) ==>
        && r == Error("failed to finalize WAV file: " + (if io.stat.Fail? then io.stat.msg else io.header.msg))
        && executed == None && Current() == old(Current()).(stopSignalled := true)
        && old(currentFile).data == old(currentFile.data) && !old(currentFile).closed
      ensures io.stat.Pass? && io.header.Pass? ==>
        && old(currentFile).data == Finalized(format, old(currentFile.data))
        && old(currentFile).closed == io.info.Pass?
      ensures io.stat.Pass? && io.header.Pass? && io.info.Fail? ==>
        && r == Error("failed to get file info: " + io.info.msg)
        && executed == None && Current() == old(Current()).(stopSignalled := true)
      ensures io.stat.Pass? && io.header.Pass? && io.info.Pass? && io.close.Fail? ==>
        && r == Error("failed to close file: " + io.close.msg)
        && executed == None && Current() == old(Current()).(stopSignalled := true)
      ensures io.stat.Pass? && io.header.Pass? && io.info.Pass? && io.close.Pass? ==>
        && executed == Some(RecordingRepository.Statement(RecordingRepository.CompletionQuery,
             [RecordingRepository.IntValue(WholeSeconds(now - old(startTime) - old(pausedTotal))),
              RecordingRepository.IntValue(|Finalized(format, old(currentFile.data))|),
              RecordingRepository.TextValue("completed"),
              RecordingRepository.TimeValue(io.completedAt),
              RecordingRepository.IntValue(old(currentID))]))
        && r == CompletionReply(io.db)
        && Current() == if r.Done? then old(Current()).(state := Stopped, file := null, stopSignalled := true)
                        else old(Current()).(stopSignalled := true)
    {
      stopSignalled := true;
      var durationSeconds := WholeSeconds(now - startTime - pausedTotal);
      var err, fileSize := CloseOutFile(io);
      if err.Fail? {
        return Error(err.msg), None;
      }
      r, executed := CompleteRecord(currentID, durationSeconds, fileSize, io.completedAt, io.db);
      if r.Done? {
        state := Stopped;
        currentFile := null;
      }
    }
  }

  /** The database step of `Stop`: `MarkCompleted` with the session's
      duration and size, its error wrapped once more. */
  method CompleteRecord(id: int, durationSeconds: int, fileSize: int, completedAt: int,
                        db: RecordingRepository.ExecOutcome)
    returns (r: Reply, executed: Option<RecordingRepository.Statement>)
    ensures executed == Some(RecordingRepository.Statement(RecordingRepository.CompletionQuery,
      [RecordingRepository.IntValue(durationSeconds), RecordingRepository.IntValue(fileSize),
       RecordingRepository.TextValue("completed"), RecordingRepository.TimeValue(completedAt),
       RecordingRepository.IntValue(id)]))
    ensures r == CompletionReply(db)
  {
    var err;
    executed, err := RecordingRepository.MarkCompleted(id, durationSeconds, fileSize, completedAt, db);
    r := if err.Fail? then Error("failed to update recording: " + err.msg) else Done;
  }

  /** How `Stop` reports the database's answer to the completion update:
      the repository's own error, wrapped once more. It succeeds exactly
      when the update reached a row, and never panics. */
  function CompletionReply(db: RecordingRepository.ExecOutcome): (r: Reply)
    ensures r.Done? <==> db.RowsAffected? && db.n != 0
    ensures !r.Panic?
  {
    match db
    case ExecError(m) => Error("failed to update recording: " + ("failed to update recording: " + m))
    case RowsAffectedError(m) => Error("failed to update recording: " + ("failed to get rows affected: " + m))
    case RowsAffected(n) => if n == 0 then Error("failed to update recording: " + "recording not found") else Done
  }

  /** The capture part of the sessions below: start at `t0` (as the code is
      written when `asWritten`, corrected otherwise), `a` captured, pause at
      `t1`, `b` captured while paused, resume at `t2`, `c` captured. Only `a`
      and `c` reach the file: right after the header, or, as written, over it. */
  method CaptureWithPause(asWritten: bool, cfg: AudioFormat, fileId: string, id: int,
                          a: seq<byte>, b: seq<byte>, c: seq<byte>, t0: nat, t1: nat, t2: nat)
    returns (rec: Recorder, f: AudioFile)
    requires t0 <= t1 <= t2
    ensures fresh(rec) && fresh(f) && rec.Valid() && rec.currentFile == f
    ensures rec.format == if cfg.sampleRate == 0 then DefaultAudioFormat() else cfg
    ensures rec.state == Recording && !rec.stopSignalled && rec.currentID == id && rec.clock == t2
    ensures rec.startTime == t0 && rec.pausedTotal == t2 - t1
    ensures rec.header == HeaderBytes(rec.format, 0) && rec.delivered == a + c && rec.overwrites == asWritten
    ensures !asWritten ==> f.data == HeaderBytes(rec.format, 0) + (a + c)
    ensures asWritten ==> f.data == OverwriteAtStart(HeaderBytes(rec.format, 0), a + c)
  {
    rec := new Recorder(cfg);
    ghost var h := HeaderBytes(rec.format, 0);
    var started;
    if asWritten {
      started := rec.StartAsWritten(fileId, t0, StartIo(Pass, Pass, Ok(id)));
    } else {
      started := rec.Start(fileId, t0, StartIo(Pass, Pass, Ok(id)));
    }
    f := rec.currentFile;
    assert rec.state == Recording && rec.currentID == id && !rec.stopSignalled;
    assert rec.header == h && rec.delivered == [] && rec.overwrites == asWritten;
    assert rec.startTime == t0 && rec.pausedTotal == 0 && rec.clock == t0;

    rec.DeliverFrames(a, Pass);
    assert rec.delivered == [] + a == a && rec.state == Recording;
    var paused := rec.Pause(t1);
    assert rec.state == Paused && rec.pauseTime == t1 && rec.currentFile == f;
    rec.DeliverFrames(b, Pass);
    assert rec.delivered == a;
    var resumed := rec.Resume(t2);
    assert rec.state == Recording && rec.pausedTotal == t2 - t1 && rec.startTime == t0 && rec.currentFile == f;
    rec.DeliverFrames(c, Pass);
    assert rec.delivered == a + c;
  }

  /** A whole session in which every call succeeds: the capture above, then
      stop at `t3`. The file is the finalisation of what the capture wrote;
      the active time just before stopping excludes the pause; the database
      is told that time in whole seconds and the file's size. */
  method SessionThroughStop(asWritten: bool, cfg: AudioFormat, fileId: string, id: int, completedAt: int,
                            a: seq<byte>, b: seq<byte>, c: seq<byte>,
                            t0: nat, t1: nat, t2: nat, t3: nat)
    returns (file: seq<byte>, r: Reply, ghost activeTime: int, ghost executed: Option<RecordingRepository.Statement>)
    requires t0 <= t1 <= t2 <= t3
    ensures r == Done
    ensures var f := if cfg.sampleRate == 0 then DefaultAudioFormat() else cfg;
      file == Finalized(f, if asWritten then OverwriteAtStart(HeaderBytes(f, 0), a + c) else HeaderBytes(f, 0) + (a + c))
    ensures activeTime == (t1 - t0) + (t3 - t2)
    ensures executed == Some(RecordingRepository.Statement(RecordingRepository.CompletionQuery,
      [RecordingRepository.IntValue(WholeSeconds(activeTime)),
       RecordingRepository.IntValue(|file|),
       RecordingRepository.TextValue("completed"),
       RecordingRepository.TimeValue(completedAt),
       RecordingRepository.IntValue(id)]))
  {
    var rec, f := CaptureWithPause(asWritten, cfg, fileId, id, a, b, c, t0, t1, t2);
    activeTime := rec.GetDuration(t3);
    assert activeTime == t3 - t0 - (t2 - t1) == (t1 - t0) + (t3 - t2);
    r, executed := StopSession(rec, f, t3, completedAt);
    file := f.data;
  }

  /** The corrected session: the file holds the header for |a| + |c|
      payload bytes followed by `a` and `c`, so the paused audio is
      dropped and every other byte kept; the database is told the active
      time and a size of 44 + |a| + |c|. */
  method RecordSession(cfg: AudioFormat, fileId: string, id: int, completedAt: int,
                       a: seq<byte>, b: seq<byte>, c: seq<byte>,
                       t0: nat, t1: nat, t2: nat, t3: nat)
    returns (file: seq<byte>, r: Reply, ghost activeTime: int, ghost executed: Option<RecordingRepository.Statement>)
    requires t0 <= t1 <= t2 <= t3 && |a| + |c| < Two32
    ensures r == Done
    ensures var f := if cfg.sampleRate == 0 then DefaultAudioFormat() else cfg;
      file == HeaderBytes(f, |a| + |c|) + (a + c)
    ensures U32At(file, 40) == |a| + |c| && U32At(file, 4) == (|a| + |c| + 36) % Two32
    ensures activeTime == (t1 - t0) + (t3 - t2)
    ensures executed == Some(RecordingRepository.Statement(RecordingRepository.CompletionQuery,
      [RecordingRepository.IntValue(WholeSeconds(activeTime)),
       RecordingRepository.IntValue(HeaderSize + |a| + |c|),
       RecordingRepository.TextValue("completed"),
       RecordingRepository.TimeValue(completedAt),
       RecordingRepository.IntValue(id)]))
  {
    file, r, activeTime, executed := SessionThroughStop(false, cfg, fileId, id, completedAt, a, b, c, t0, t1, t2, t3);
    ghost var fmt := if cfg.sampleRate == 0 then DefaultAudioFormat() else cfg;
    ghost var d := a + c;
    IntendedFinalFile(fmt, d);
    assert |d| == |a| + |c|;
    assert |file| == HeaderSize + |a| + |c|;
  }

  /** The same session as the code is written: the audio `a` and `c` goes
      over the placeholder header and finalisation writes the header back
      over the first 44 audio bytes. Less than 44 bytes of audio leaves a
      bare header declaring an empty payload; more loses its first 44 bytes,
      and the header declares 44 bytes fewer than were delivered. The
      database is told the file's size, which is never below 44. */
  method RecordSessionAsWritten(cfg: AudioFormat, fileId: string, id: int, completedAt: int,
                                a: seq<byte>, b: seq<byte>, c: seq<byte>,
                                t0: nat, t1: nat, t2: nat, t3: nat)
    returns (file: seq<byte>, r: Reply, ghost activeTime: int, ghost executed: Option<RecordingRepository.Statement>)
    requires t0 <= t1 <= t2 <= t3 && |a| + |c| < Two32
    ensures r == Done
    ensures var f := if cfg.sampleRate == 0 then DefaultAudioFormat() else cfg;
      && (|a| + |c| < HeaderSize ==> file == HeaderBytes(f, 0))
      && (HeaderSize <= |a| + |c| ==> file == HeaderBytes(f, |a| + |c| - HeaderSize) + (a + c)[HeaderSize..])
    ensures HeaderSize <= |a| + |c| ==> U32At(file, 40) == |a| + |c| - HeaderSize
    ensures |file| == if |a| + |c| < HeaderSize then HeaderSize else |a| + |c|
    ensures activeTime == (t1 - t0) + (t3 - t2)
    ensures executed == Some(RecordingRepository.Statement(RecordingRepository.CompletionQuery,
      [RecordingRepository.IntValue(WholeSeconds(activeTime)),
       RecordingRepository.IntValue(|file|),
       RecordingRepository.TextValue("completed"),
       RecordingRepository.TimeValue(completedAt),
       RecordingRepository.IntValue(id)]))
  {
    file, r, activeTime, executed := SessionThroughStop(true, cfg, fileId, id, completedAt, a, b, c, t0, t1, t2, t3);
    ghost var fmt := if cfg.sampleRate == 0 then DefaultAudioFormat() else cfg;
    ghost var d := a + c;
    AsWrittenFinalFile(fmt, d);
    assert |d| == |a| + |c|;
  }

  /** `Stop` on an active session when the file system and the database
      both succeed: the file is finalised and the completion update carries
      the active time in whole seconds, the final size and the record's id. */
  method StopSession(rec: Recorder, f: AudioFile, now: nat, completedAt: int)
    returns (r: Reply, ghost executed: Option<RecordingRepository.Statement>)
    requires rec.Valid() && rec.Active() && !rec.stopSignalled && rec.currentFile == f && rec.clock <= now
    modifies rec, f
    ensures r == Done && rec.state == Stopped
    ensures f.data == Finalized(rec.format, old(f.data))
    ensures executed == Some(RecordingRepository.Statement(RecordingRepository.CompletionQuery,
      [RecordingRepository.IntValue(WholeSeconds(now - old(rec.startTime) - old(rec.pausedTotal))),
       RecordingRepository.IntValue(|f.data|),
       RecordingRepository.TextValue("completed"),
       RecordingRepository.TimeValue(completedAt),
       RecordingRepository.IntValue(old(rec.currentID))]))
  {
    r, executed := rec.Stop(now, StopIo(Pass, Pass, Pass, Pass, RecordingRepository.RowsAffected(1), completedAt));
  }

  /** As the code is written, the audio of a session (`d`, every byte
      delivered while recording) is written from offset 0 over the
      placeholder header, and finalisation writes the header back over the
      first 44 audio bytes: a session shorter than a header leaves no audio
      at all, a longer one loses its first 44 bytes and declares a payload
      44 bytes short. */
  lemma {:induction false} AsWrittenFinalFile(f: AudioFormat, d: seq<byte>)
    requires |d| < Two32
    ensures |d| < HeaderSize ==> Finalized(f, OverwriteAtStart(HeaderBytes(f, 0), d)) == HeaderBytes(f, 0)
    ensures HeaderSize <= |d| ==>
      && Finalized(f, OverwriteAtStart(HeaderBytes(f, 0), d)) == HeaderBytes(f, |d| - HeaderSize) + d[HeaderSize..]
      && U32At(Finalized(f, OverwriteAtStart(HeaderBytes(f, 0), d)), 40) == |d| - HeaderSize
    ensures |Finalized(f, OverwriteAtStart(HeaderBytes(f, 0), d))| == if |d| < HeaderSize then HeaderSize else |d|
  {
    var written := OverwriteAtStart(HeaderBytes(f, 0), d);
    if |d| < HeaderSize {
      HeaderOnlyFinalization(f, written);
    } else {
      assert written == d;
      var h := HeaderBytes(f, |d| - HeaderSize);
      assert FinalPayloadSize(d) == |d| - HeaderSize;
      var r := Finalized(f, d);
      if |d| == HeaderSize {
        assert r == h;
        assert d[HeaderSize..] == [];
      } else {
        assert r == h + d[HeaderSize..];
      }
      HeaderLayout(f, |d| - HeaderSize);
      U32AtPrefix(r, HeaderSize, 40);
      assert r[..HeaderSize] == h;
    }
  }

  /** As intended, the audio follows the placeholder header, and
      finalisation declares exactly the audio's length and keeps every
      audio byte. */
  lemma {:induction false} IntendedFinalFile(f: AudioFormat, d: seq<byte>)
    requires |d| < Two32
    ensures Finalized(f, HeaderBytes(f, 0) + d) == HeaderBytes(f, |d|) + d
    ensures U32At(Finalized(f, HeaderBytes(f, 0) + d), 40) == |d|
    ensures U32At(Finalized(f, HeaderBytes(f, 0) + d), 4) == (|d| + 36) % Two32
  {
    var data := HeaderBytes(f, 0) + d;
    assert data[HeaderSize..] == d;
    assert FinalPayloadSize(data) == |d|;
    var h := HeaderBytes(f, |d|);
    var r := Finalized(f, data);
    if |d| == 0 {
      assert r == h && h + d == h;
    } else {
      assert r == h + d;
    }
    HeaderLayout(f, |d|);
    U32AtPrefix(r, HeaderSize, 40);
    U32AtPrefix(r, HeaderSize, 4);
    assert r[..HeaderSize] == h;
  }

  lemma OverwriteEmpty(h: seq<byte>)
    ensures OverwriteAtStart([], h) == h && OverwriteAtStart(h, []) == h
  {
  }

  /** Writing on from the end of bytes that overwrote a header is the same
      as overwriting the header with all of them. */
  lemma ContinueOverwrite(header: seq<byte>, written: seq<byte>, batch: seq<byte>)
    ensures Splice(OverwriteAtStart(header, written), |written|, batch) == OverwriteAtStart(header, written + batch)
  {
    var lhs := Splice(OverwriteAtStart(header, written), |written|, batch);
    var rhs := OverwriteAtStart(header, written + batch);
    assert |lhs| == |rhs|;
    forall i | 0 <= i < |lhs|
      ensures lhs[i] == rhs[i]
    {
      if i < |written| {
        assert OverwriteAtStart(header, written)[..|written|][i] == written[i];
        assert rhs[..|written + batch|][i] == (written + batch)[i];
      } else if i < |written| + |batch| {
        assert lhs[|written|..|written| + |batch|][i - |written|] == batch[i - |written|];
        assert rhs[..|written + batch|][i] == (written + batch)[i];
      }
    }
  }
}

=== FILE: recording_repository.dfy ===
/** The dynamic UPDATE statement of the recordings repository: which
    `column = ?` clauses it emits, in which order, with which bound
    arguments, and how it reads the database's answer. Executing the
    statement is outside the model: the database's reply is an input. */
module RecordingRepository {
  import opened Outcomes

  /** A value bound to a `?` placeholder. Times are instants in nanoseconds. */
  datatype SqlValue = IntValue(i: int) | TextValue(s: string) | TimeValue(t: int)

  /** The optional fields of an update; `None` is a nil pointer. */
  datatype UpdateRecordingParams = UpdateRecordingParams(
    durationSeconds: Option<int>,
    fileSizeBytes: Option<int>,
    status: Option<string>,
    completedAt: Option<int>,
    transcriptionStatus: Option<string>,
    notes: Option<string>)

  /** The SQL text and the arguments handed to `Exec`. */
  datatype Statement = Statement(query: string, args: seq<SqlValue>)

  /** The database's answer: `Exec` fails, `RowsAffected` fails, or a row count. */
  datatype ExecOutcome = ExecError(msg: string) | RowsAffectedError(msg: string) | RowsAffected(n: int)

  /** One `column = ?` clause and the value bound to its placeholder. */
  datatype Assignment = Assignment(column: string, value: SqlValue)

  /** A settable column and the value the parameters give it, if any. */
  datatype Field = Field(column: string, value: Option<SqlValue>)

  const DurationColumn := "duration_seconds"
  const SizeColumn := "file_size_bytes"
  const StatusColumn := "status"
  const CompletedColumn := "completed_at"
  const TranscriptionColumn := "transcription_status"
  const NotesColumn := "notes"

  /** The settable columns in the order the update checks them. */
  const Columns: seq<string> :=
    [DurationColumn, SizeColumn, StatusColumn, CompletedColumn, TranscriptionColumn, NotesColumn]

  /** Position of a column in `Columns`; |Columns| for any other name. */
  function Rank(column: string): (r: nat)
    ensures r <= |Columns|
    ensures r < |Columns| ==> Columns[r] == column
  {
    if column == Columns[0] then 0
    else if column == Columns[1] then 1
    else if column == Columns[2] then 2
    else if column == Columns[3] then 3
    else if column == Columns[4] then 4
    else if column == Columns[5] then 5
    else 6
  }

  /** The value the parameters give a column, looked up by the column's name. */
  function ParamValue(p: UpdateRecordingParams, column: string): Option<SqlValue>
  {
    if column == DurationColumn then
      (if p.durationSeconds.Some? then Some(IntValue(p.durationSeconds.value)) else None)
    else if column == SizeColumn then
      (if p.fileSizeBytes.Some? then Some(IntValue(p.fileSizeBytes.value)) else None)
    else if column == StatusColumn then
      (if p.status.Some? then Some(TextValue(p.status.value)) else None)
    else if column == CompletedColumn then
      (if p.completedAt.Some? then Some(TimeValue(p.completedAt.value)) else None)
    else if column == TranscriptionColumn then
      (if p.transcriptionStatus.Some? then Some(TextValue(p.transcriptionStatus.value)) else None)
    else if column == NotesColumn then
      (if p.notes.Some? then Some(TextValue(p.notes.value)) else None)
    else None
  }

  function OptInt(o: Option<int>): Option<SqlValue>
  {
    match o
    case Some(v) => Some(IntValue(v))
    case None => None
  }

  function OptText(o: Option<string>): Option<SqlValue>
  {
    match o
    case Some(v) => Some(TextValue(v))
    case None => None
  }

  function OptTime(o: Option<int>): Option<SqlValue>
  {
    match o
    case Some(v) => Some(TimeValue(v))
    case None => None
  }

  /** Every settable column, in the order the update checks them, with the
      value the parameters give it. */
  function Fields(p: UpdateRecordingParams): (fs: seq<Field>)
    ensures |fs| == |Columns|
  {
    [Field(DurationColumn, OptInt(p.durationSeconds)),
     Field(SizeColumn, OptInt(p.fileSizeBytes)),
     Field(StatusColumn, OptText(p.status)),
     Field(CompletedColumn, OptTime(p.completedAt)),
     Field(TranscriptionColumn, OptText(p.transcriptionStatus)),
     Field(NotesColumn, OptText(p.notes))]
  }

  /** The fields list every column once, at its rank, with its by-name value. */
  lemma FieldsByName(p: UpdateRecordingParams)
    ensures forall i :: 0 <= i < |Columns| ==>
      Fields(p)[i].column == Columns[i] && Rank(Columns[i]) == i &&
      Fields(p)[i].value == ParamValue(p, Columns[i])
  {
  }

  /** The clause a field contributes: one assignment if it is set, none otherwise. */
  function Contribution(fd: Field): seq<Assignment>
  {
    match fd.value
    case Some(v) => [Assignment(fd.column, v)]
    case None => []
  }

  /** The assignments of the set fields, keeping the fields' order. */
  function Present(fs: seq<Field>): seq<Assignment>
  {
    if fs == [] then [] else Contribution(fs[0]) + Present(fs[1..])
  }

  /** The assignments an update with parameters `p` makes: one per set
      field, in the order of `Fields`. */
  function Assignments(p: UpdateRecordingParams): seq<Assignment>
  {
    Present(Fields(p))
  }

  /** The text that sets one column from a placeholder. */
  function Clause(column: string): string
  {
    column + " = ?"
  }

  function Clauses(asg: seq<Assignment>): (cs: seq<string>)
    ensures |cs| == |asg|
  {
    seq(|asg|, i requires 0 <= i < |asg| => Clause(asg[i].column))
  }

  function Values(asg: seq<Assignment>): (vs: seq<SqlValue>)
    ensures |vs| == |asg|
  {
    seq(|asg|, i requires 0 <= i < |asg| => asg[i].value)
  }

  /** `strings.Join`, written from the right end as the query loop extends it. */
  function Join(xs: seq<string>, sep: string): string
  {
    if |xs| == 0 then ""
    else if |xs| == 1 then xs[0]
    else Join(xs[..|xs| - 1], sep) + sep + xs[|xs| - 1]
  }

  lemma JoinStep(xs: seq<string>, i: nat, sep: string)
    requires 1 <= i < |xs|
    ensures Join(xs[..i + 1], sep) == Join(xs[..i], sep) + sep + xs[i]
  {
    assert xs[..i + 1][..i] == xs[..i];
  }

  const UpdatePrefix := "UPDATE recordings SET "
  const UpdateSuffix := " WHERE id = ?"

  function UpdateQuery(asg: seq<Assignment>): string
  {
    UpdatePrefix + Join(Clauses(asg), ", ") + UpdateSuffix
  }

  // ---------------------------------------------------------------------
  // Update and MarkCompleted

  lemma {:induction false} PresentSnoc(fs: seq<Field>, k: nat)
    requires k < |fs|
    ensures Present(fs[..k + 1]) == Present(fs[..k]) + Contribution(fs[k])
  {
    if k == 0 {
      assert fs[..1][1..] == [];
    } else {
      var tail := fs[1..];
      assert fs[..k + 1][1..] == tail[..k];
      assert fs[..k][1..] == tail[..k - 1];
      PresentSnoc(tail, k - 1);
    }
  }

  /** Appending a field's contribution extends the clauses and the values
      exactly when the field is set. */
  lemma CollectStep(asg: seq<Assignment>, fd: Field)
    ensures Clauses(asg + Contribution(fd)) ==
      if fd.value.Some? then Clauses(asg) + [Clause(fd.column)] else Clauses(asg)
    ensures Values(asg + Contribution(fd)) ==
      if fd.value.Some? then Values(asg) + [fd.value.value] else Values(asg)
  {
    if fd.value.None? {
      assert asg + Contribution(fd) == asg;
    }
  }

  /** The assignments of an update are the contributions of the six fields
      taken one after the other. */
  lemma {:induction false} AssignmentsUnfold(p: UpdateRecordingParams)
    ensures var fs := Fields(p);
      Assignments(p) == [] + Contribution(fs[0]) + Contribution(fs[1]) + Contribution(fs[2])
        + Contribution(fs[3]) + Contribution(fs[4]) + Contribution(fs[5])
  {
    var fs := Fields(p);
    assert fs[..0] == [];
    PresentSnoc(fs, 0);
    PresentSnoc(fs, 1);
    PresentSnoc(fs, 2);
    PresentSnoc(fs, 3);
    PresentSnoc(fs, 4);
    PresentSnoc(fs, 5);
    assert fs[..6] == fs;
  }

  /** One of the `if` statements at the head of `Update`: a set field adds
      its clause and its value, an unset one adds nothing. */
  method CollectField(updates: seq<string>, args: seq<SqlValue>, fd: Field, ghost asg: seq<Assignment>)
    returns (updates': seq<string>, args': seq<SqlValue>)
    requires updates == Clauses(asg) && args == Values(asg)
    ensures updates' == Clauses(asg + Contribution(fd)) && args' == Values(asg + Contribution(fd))
    ensures fd.value.Some? ==> updates' == updates + [Clause(fd.column)] && args' == args + [fd.value.value]
    ensures fd.value.None? ==> updates' == updates && args' == args
  {
    CollectStep(asg, fd);
    if fd.value.Some? {
      updates' := updates + [Clause(fd.column)];
      args' := args + [fd.value.value];
    } else {
      updates', args' := updates, args;
    }
  }

  /** The six `if` statements at the head of `Update`: one clause and one
      argument per set field, in the fixed column order. */
  method CollectUpdates(p: UpdateRecordingParams) returns (updates: seq<string>, args: seq<SqlValue>)
    ensures updates == Clauses(Assignments(p)) && args == Values(Assignments(p))
  {
    ghost var fs := Fields(p);
    ghost var asg: seq<Assignment> := [];
    updates, args := CollectField([], [], Field(DurationColumn, OptInt(p.durationSeconds)), asg);
    asg := asg + Contribution(fs[0]);
    updates, args := CollectField(updates, args, Field(SizeColumn, OptInt(p.fileSizeBytes)), asg);
    asg := asg + Contribution(fs[1]);
    updates, args := CollectField(updates, args, Field(StatusColumn, OptText(p.status)), asg);
    asg := asg + Contribution(fs[2]);
    updates, args := CollectField(updates, args, Field(CompletedColumn, OptTime(p.completedAt)), asg);
    asg := asg + Contribution(fs[3]);
    updates, args := CollectField(updates, args, Field(TranscriptionColumn, OptText(p.transcriptionStatus)), asg);
    asg := asg + Contribution(fs[4]);
    updates, args := CollectField(updates, args, Field(NotesColumn, OptText(p.notes)), asg);
    asg := asg + Contribution(fs[5]);
    AssignmentsUnfold(p);
  }

  /** The statement `Update` builds: clauses only for set fields, in the
      fixed column order, joined by ", ", with `id` bound last. An update
      with no field set is refused before anything is executed. */
  method Update(id: int, p: UpdateRecordingParams, db: ExecOutcome)
    returns (executed: Option<Statement>, err: Outcome)
    ensures Assignments(p) == [] ==> executed == None && err == Fail("no fields to update")
    ensures Assignments(p) != [] ==>
      executed == Some(Statement(UpdateQuery(Assignments(p)), Values(Assignments(p)) + [IntValue(id)]))
    ensures Assignments(p) != [] && db.ExecError? ==> err == Fail("failed to update recording: " + db.msg)
    ensures Assignments(p) != [] && db.RowsAffectedError? ==> err == Fail("failed to get rows affected: " + db.msg)
    ensures Assignments(p) != [] && db.RowsAffected? ==> err == (if db.n == 0 then Fail("recording not found") else Pass)
  {
    var query := UpdatePrefix;
    var updates, args := CollectUpdates(p);
    if |updates| == 0 {
      return None, Fail("no fields to update");
    }

    query := query + updates[0];
    var i := 1;
    while i < |updates|
      invariant 1 <= i <= |updates|
      invariant query == UpdatePrefix + Join(updates[..i], ", ")
    {
      JoinStep(updates, i, ", ");
      query := query + ", " + updates[i];
      i := i + 1;
    }
    assert updates[..i] == updates;
    query := query + UpdateSuffix;
    args := args + [IntValue(id)];
    executed := Some(Statement(query, args));

    match db
    case ExecError(m) =>
      err := Fail("failed to update recording: " + m);
    case RowsAffectedError(m) =>
      err := Fail("failed to get rows affected: " + m);
    case RowsAffected(n) =>
      err := if n == 0 then Fail("recording not found") else Pass;
  }

  /** The parameters `MarkCompleted` passes to `Update`. */
  function CompletionParams(duration: int, fileSize: int, now: int): UpdateRecordingParams
  {
    UpdateRecordingParams(Some(duration), Some(fileSize), Some("completed"), Some(now), None, None)
  }

  lemma CompletionAssignments(duration: int, fileSize: int, now: int)
    ensures Assignments(CompletionParams(duration, fileSize, now)) ==
      [Assignment(DurationColumn, IntValue(duration)), Assignment(SizeColumn, IntValue(fileSize)),
       Assignment(StatusColumn, TextValue("completed")), Assignment(CompletedColumn, TimeValue(now))]
  {
    AssignmentsUnfold(CompletionParams(duration, fileSize, now));
  }

  lemma CompletionClauses(duration: int, fileSize: int, now: int)
    ensures var asg := Assignments(CompletionParams(duration, fileSize, now));
      && Clauses(asg) == [Clause(DurationColumn), Clause(SizeColumn), Clause(StatusColumn), Clause(CompletedColumn)]
      && Values(asg) == [IntValue(duration), IntValue(fileSize), TextValue("completed"), TimeValue(now)]
  {
    CompletionAssignments(duration, fileSize, now);
  }

  const CompletionQuery :=
    "UPDATE recordings SET duration_seconds = ?, file_size_bytes = ?, status = ?, completed_at = ? WHERE id = ?"

  lemma AppendAssoc(a: string, b: string, c: string)
    ensures a + (b + c) == a + b + c
  {
  }

  /** A prefix followed by four joined strings, associated to the left. */
  lemma {:induction false} PrefixJoinFour(pre: string, xs: seq<string>, sep: string)
    requires |xs| == 4
    ensures pre + Join(xs, sep) == pre + xs[0] + sep + xs[1] + sep + xs[2] + sep + xs[3]
  {
    assert xs[..2][..1] == xs[..1];
    assert Join(xs[..1], sep) == xs[0];
    assert xs[..3][..2] == xs[..2];
    assert xs[..4][..3] == xs[..3];
    assert xs[..4] == xs;
    var j2 := Join(xs[..2], sep);
    var j3 := Join(xs[..3], sep);
    assert j2 == xs[0] + sep + xs[1];
    assert j3 == j2 + sep + xs[2];
    assert Join(xs, sep) == j3 + sep + xs[3];
    AppendAssoc(pre, j3 + sep, xs[3]);
    AppendAssoc(pre, j3, sep);
    AppendAssoc(pre, j2 + sep, xs[2]);
    AppendAssoc(pre, j2, sep);
    AppendAssoc(pre, xs[0] + sep, xs[1]);
    AppendAssoc(pre, xs[0], sep);
  }

  // The completion query, one clause at a time.
  const CompletionText1 := "UPDATE recordings SET duration_seconds = ?"
  const CompletionText2 := "UPDATE recordings SET duration_seconds = ?, file_size_bytes = ?"
  const CompletionText3 := "UPDATE recordings SET duration_seconds = ?, file_size_bytes = ?, status = ?"
  const CompletionText4 := "UPDATE recordings SET duration_seconds = ?, file_size_bytes = ?, status = ?, completed_at = ?"

  lemma CompletionText1Is()
    ensures UpdatePrefix + Clause(DurationColumn) == CompletionText1
  {
  }

  lemma CompletionText2Is()
    ensures CompletionText1 + ", " + Clause(SizeColumn) == CompletionText2
  {
  }

  lemma CompletionText3Is()
    ensures CompletionText2 + ", " + Clause(StatusColumn) == CompletionText3
  {
  }

  lemma CompletionText4Is()
    ensures CompletionText3 + ", " + Clause(CompletedColumn) == CompletionText4
  {
  }

  lemma CompletionQueryIs()
    ensures CompletionText4 + UpdateSuffix == CompletionQuery
  {
  }

  lemma CompletionJoin(cs: seq<string>)
    requires cs == [Clause(DurationColumn), Clause(SizeColumn), Clause(StatusColumn), Clause(CompletedColumn)]
    ensures UpdatePrefix + Join(cs, ", ") + UpdateSuffix == CompletionQuery
  {
    PrefixJoinFour(UpdatePrefix, cs, ", ");
    CompletionText1Is();
    CompletionText2Is();
    CompletionText3Is();
    CompletionText4Is();
    CompletionQueryIs();
  }

  lemma {:induction false} CompletionStatement(duration: int, fileSize: int, now: int, id: int)
    ensures var asg := Assignments(CompletionParams(duration, fileSize, now));
      && UpdateQuery(asg) == CompletionQuery
      && Values(asg) + [IntValue(id)] ==
         [IntValue(duration), IntValue(fileSize), TextValue("completed"), TimeValue(now), IntValue(id)]
  {
    CompletionClauses(duration, fileSize, now);
    var cs := Clauses(Assignments(CompletionParams(duration, fileSize, now)));
    CompletionJoin(cs);
  }

  /** `MarkCompleted` sets exactly the duration, the size, status "completed"
      and the completion time (never the transcription status or the notes),
      and binds the record id last. */
  method MarkCompleted(id: int, duration: int, fileSize: int, now: int, db: ExecOutcome)
    returns (executed: Option<Statement>, err: Outcome)
    ensures executed == Some(Statement(CompletionQuery,
      [IntValue(duration), IntValue(fileSize), TextValue("completed"), TimeValue(now), IntValue(id)]))
    ensures db.ExecError? ==> err == Fail("failed to update recording: " + db.msg)
    ensures db.RowsAffectedError? ==> err == Fail("failed to get rows affected: " + db.msg)
    ensures db.RowsAffected? ==> err == (if db.n == 0 then Fail("recording not found") else Pass)
  {
    CompletionStatement(duration, fileSize, now, id);
    executed, err := Update(id, CompletionParams(duration, fileSize, now), db);
  }

  // ---------------------------------------------------------------------
  // Properties of the statement

  /** Number of `?` placeholders in a SQL text. */
  function Placeholders(s: string): nat
  {
    multiset(s)['?']
  }

  lemma NoPlaceholder(s: string)
    requires '?' !in s
    ensures Placeholders(s) == 0
  {
  }

  lemma PlaceholdersAppend(a: string, b: string)
    ensures Placeholders(a + b) == Placeholders(a) + Placeholders(b)
  {
    assert multiset(a + b) == multiset(a) + multiset(b);
  }

  lemma OnePlaceholderPerClause(column: string)
    requires '?' !in column
    ensures Placeholders(Clause(column)) == 1
  {
    assert multiset(column)['?'] == 0;
  }

  /** Joining clauses of one placeholder each with a separator that has none. */
  lemma {:induction false} PlaceholdersInJoin(xs: seq<string>, sep: string)
    requires '?' !in sep
    requires forall k :: 0 <= k < |xs| ==> Placeholders(xs[k]) == 1
    ensures Placeholders(Join(xs, sep)) == |xs|
  {
    if |xs| > 1 {
      var init := xs[..|xs| - 1];
      PlaceholdersInJoin(init, sep);
      NoPlaceholder(sep);
      PlaceholdersAppend(Join(init, sep), sep);
      PlaceholdersAppend(Join(init, sep) + sep, xs[|xs| - 1]);
    }
  }

  lemma PrefixHasNoPlaceholder()
    ensures '?' !in UpdatePrefix
  {
  }

  lemma SuffixIsClause()
    ensures UpdateSuffix == " WHERE " + Clause("id")
  {
  }

  lemma SeparatorsHaveNoPlaceholder()
    ensures '?' !in ", " && '?' !in " WHERE " && '?' !in "id"
  {
  }

  /** The `WHERE id = ?` tail binds one placeholder. */
  lemma SuffixPlaceholders()
    ensures Placeholders(UpdateSuffix) == 1
  {
    SeparatorsHaveNoPlaceholder();
    SuffixIsClause();
    NoPlaceholder(" WHERE ");
    OnePlaceholderPerClause("id");
    PlaceholdersAppend(" WHERE ", Clause("id"));
  }

  /** Each clause binds one placeholder when no column name holds a `?`. */
  lemma ClausePlaceholders(asg: seq<Assignment>)
    requires forall k :: 0 <= k < |asg| ==> '?' !in asg[k].column
    ensures forall k :: 0 <= k < |Clauses(asg)| ==> Placeholders(Clauses(asg)[k]) == 1
  {
    forall k | 0 <= k < |asg|
      ensures Placeholders(Clauses(asg)[k]) == 1
    {
      OnePlaceholderPerClause(asg[k].column);
    }
  }

  /** The statement has as many `?` placeholders as bound arguments: one per
      clause and one for the id. */
  lemma {:induction false} PlaceholdersMatchArgs(asg: seq<Assignment>, id: int)
    requires forall k :: 0 <= k < |asg| ==> '?' !in asg[k].column
    ensures Placeholders(UpdateQuery(asg)) == |Values(asg) + [IntValue(id)]|
  {
    var j := Join(Clauses(asg), ", ");
    ClausePlaceholders(asg);
    SeparatorsHaveNoPlaceholder();
    PlaceholdersInJoin(Clauses(asg), ", ");
    PrefixHasNoPlaceholder();
    NoPlaceholder(UpdatePrefix);
    SuffixPlaceholders();
    PlaceholdersAppend(UpdatePrefix, j);
    PlaceholdersAppend(UpdatePrefix + j, UpdateSuffix);
  }

  lemma {:induction false} PresentOrdered(fs: seq<Field>, lo: int)
    requires forall i :: 0 <= i < |fs| ==> lo <= Rank(fs[i].column)
    requires forall i, j :: 0 <= i < j < |fs| ==> Rank(fs[i].column) < Rank(fs[j].column)
    ensures forall k :: 0 <= k < |Present(fs)| ==> lo <= Rank(Present(fs)[k].column)
    ensures forall i, j :: 0 <= i < j < |Present(fs)| ==> Rank(Present(fs)[i].column) < Rank(Present(fs)[j].column)
  {
    if fs != [] {
      PresentOrdered(fs[1..], Rank(fs[0].column) + 1);
    }
  }

  lemma {:induction false} PresentValues(fs: seq<Field>, p: UpdateRecordingParams)
    requires forall i :: 0 <= i < |fs| ==> fs[i].value == ParamValue(p, fs[i].column)
    ensures forall k :: 0 <= k < |Present(fs)| ==> ParamValue(p, Present(fs)[k].column) == Some(Present(fs)[k].value)
  {
    if fs != [] {
      PresentValues(fs[1..], p);
    }
  }

  lemma {:induction false} PresentComplete(fs: seq<Field>, i: nat)
    requires i < |fs| && fs[i].value.Some?
    ensures exists k :: 0 <= k < |Present(fs)| && Present(fs)[k] == Assignment(fs[i].column, fs[i].value.value)
  {
    if i == 0 {
      assert Present(fs)[0] == Assignment(fs[0].column, fs[0].value.value);
    } else {
      PresentComplete(fs[1..], i - 1);
      var k :| 0 <= k < |Present(fs[1..])| && Present(fs[1..])[k] == Assignment(fs[i].column, fs[i].value.value);
      var c := Contribution(fs[0]);
      assert Present(fs)[|c| + k] == Present(fs[1..])[k];
    }
  }

  /** A clause appears exactly for each field that is set, bound to that
      field's value, and the clauses follow the fixed column order
      duration_seconds, file_size_bytes, status, completed_at,
      transcription_status, notes. */
  lemma {:induction false} AssignmentsFollowParams(p: UpdateRecordingParams)
    ensures var asg := Assignments(p);
      && (forall k :: 0 <= k < |asg| ==> ParamValue(p, asg[k].column) == Some(asg[k].value))
      && (forall i, j :: 0 <= i < j < |asg| ==> Rank(asg[i].column) < Rank(asg[j].column))
      && (forall c :: c in Columns && ParamValue(p, c).Some? ==>
            exists k :: 0 <= k < |asg| && asg[k] == Assignment(c, ParamValue(p, c).value))
  {
    var fs := Fields(p);
    FieldsByName(p);
    PresentOrdered(fs, 0);
    PresentValues(fs, p);
    forall c | c in Columns && ParamValue(p, c).Some?
      ensures exists k :: 0 <= k < |Assignments(p)| && Assignments(p)[k] == Assignment(c, ParamValue(p, c).value)
    {
      var i :| 0 <= i < |Columns| && Columns[i] == c;
      assert fs[i].column == c && fs[i].value == ParamValue(p, c);
      PresentComplete(fs, i);
      var k :| 0 <= k < |Present(fs)| && Present(fs)[k] == Assignment(fs[i].column, fs[i].value.value);
      assert Assignments(p)[k] == Assignment(c, ParamValue(p, c).value);
    }
  }

  /** Nothing is updated when no field is set, and something is otherwise. */
  lemma {:induction false} EmptyUpdateExactly(p: UpdateRecordingParams)
    ensures Assignments(p) == [] <==> forall c :: c in Columns ==> ParamValue(p, c).None?
  {
    AssignmentsFollowParams(p);
    if Assignments(p) != [] {
      var a := Assignments(p)[0];
      assert a.column in Columns;
    }
  }

  lemma {:induction false} PresentNoPlaceholder(fs: seq<Field>)
    requires forall i :: 0 <= i < |fs| ==> '?' !in fs[i].column
    ensures forall k :: 0 <= k < |Present(fs)| ==> '?' !in Present(fs)[k].column
  {
    if fs != [] {
      PresentNoPlaceholder(fs[1..]);
    }
  }

  lemma FirstColumnsNoPlaceholder()
    ensures '?' !in DurationColumn && '?' !in SizeColumn && '?' !in StatusColumn
  {
  }

  lemma LastColumnsNoPlaceholder()
    ensures '?' !in CompletedColumn && '?' !in TranscriptionColumn && '?' !in NotesColumn
  {
  }

  lemma FieldsNoPlaceholder(p: UpdateRecordingParams)
    ensures forall i :: 0 <= i < |Fields(p)| ==> '?' !in Fields(p)[i].column
  {
    FirstColumnsNoPlaceholder();
    LastColumnsNoPlaceholder();
  }

  /** Every statement `Update` executes has one argument per placeholder. */
  lemma {:induction false} UpdatePlaceholders(p: UpdateRecordingParams, id: int)
    ensures Placeholders(UpdateQuery(Assignments(p))) == |Values(Assignments(p)) + [IntValue(id)]|
  {
    FieldsNoPlaceholder(p);
    PresentNoPlaceholder(Fields(p));
    PlaceholdersMatchArgs(Assignments(p), id);
  }
}

=== FILE: wav.dfy ===
/** The RIFF/WAVE container header the recorder writes: the 44-byte header of
    the Microsoft/IBM RIFF WAVE form with a `fmt ` chunk for WAVE_FORMAT_PCM
    followed by a `data` chunk, all integers little-endian. */
module Wav {

  newtype byte = x: int | 0 <= x < 256

  const HeaderSize: nat := 44
  const Two16: nat := 0x1_0000
  const Two32: nat := 0x1_0000_0000

  /** The capture parameters; Go `int`s, so any integer. */
  datatype AudioFormat = AudioFormat(sampleRate: int, channels: int, bitDepth: int)

  /** 16 kHz, mono, 16-bit: the format chosen for long speech sessions. */
  function DefaultAudioFormat(): (f: AudioFormat)
    ensures f.sampleRate == 16000 && f.channels == 1 && f.bitDepth == 16
  {
    AudioFormat(16000, 1, 16)
  }

  /** Go's conversion of an integer to `uint32`: keep the low 32 bits. */
  function ToUint32(x: int): (r: nat)
    ensures r < Two32
    ensures 0 <= x < Two32 ==> r == x
  {
    x % Two32
  }

  /** Go's conversion of an integer to `uint16`: keep the low 16 bits. */
  function ToUint16(x: int): (r: nat)
    ensures r < Two16
    ensures 0 <= x < Two16 ==> r == x
  {
    x % Two16
  }

  // ---------------------------------------------------------------------
  // Little-endian fields (writeUint32 / writeUint16) and their readers

  function LE32(v: nat): (b: seq<byte>)
    requires v < Two32
    ensures |b| == 4
  {
    [(v % 256) as byte, (v / 256 % 256) as byte,
     (v / 256 / 256 % 256) as byte, (v / 256 / 256 / 256 % 256) as byte]
  }

  function LE16(v: nat): (b: seq<byte>)
    requires v < Two16
    ensures |b| == 2
  {
    [(v % 256) as byte, (v / 256 % 256) as byte]
  }

  /** The unsigned 32-bit little-endian integer stored at `off`. */
  function U32At(s: seq<byte>, off: nat): nat
    requires off + 4 <= |s|
  {
    s[off] as nat + 256 * (s[off + 1] as nat + 256 * (s[off + 2] as nat + 256 * s[off + 3] as nat))
  }

  /** The unsigned 16-bit little-endian integer stored at `off`. */
  function U16At(s: seq<byte>, off: nat): nat
    requires off + 2 <= |s|
  {
    s[off] as nat + 256 * s[off + 1] as nat
  }

  lemma {:induction false} LE32RoundTrip(v: nat)
    requires v < Two32
    ensures U32At(LE32(v), 0) == v
  {
    var q1 := v / 256;
    var q2 := q1 / 256;
    var q3 := q2 / 256;
    assert v == v % 256 + 256 * q1;
    assert q1 == q1 % 256 + 256 * q2;
    assert q2 == q2 % 256 + 256 * q3;
    assert q3 < 256;
  }

  lemma {:induction false} LE16RoundTrip(v: nat)
    requires v < Two16
    ensures U16At(LE16(v), 0) == v
  {
    assert v == v % 256 + 256 * (v / 256);
  }

  /** Reading a field back from anywhere inside a larger buffer. */
  lemma {:induction false} U32AtSlice(s: seq<byte>, off: nat, v: nat)
    requires off + 4 <= |s| && v < Two32 && s[off..off + 4] == LE32(v)
    ensures U32At(s, off) == v
  {
    LE32RoundTrip(v);
    assert U32At(s, off) == U32At(s[off..off + 4], 0);
  }

  lemma {:induction false} U16AtSlice(s: seq<byte>, off: nat, v: nat)
    requires off + 2 <= |s| && v < Two16 && s[off..off + 2] == LE16(v)
    ensures U16At(s, off) == v
  {
    LE16RoundTrip(v);
    assert U16At(s, off) == U16At(s[off..off + 2], 0);
  }

  // ---------------------------------------------------------------------
  // Header layout

  /** `sampleRate * uint32(numChannels) * uint32(bitsPerSample) / 8`, every
      operand and product wrapped to 32 bits as the Go code computes it. */
  function ByteRate(f: AudioFormat): (r: nat)
    ensures r < Two32
  {
    ToUint32(ToUint32(ToUint32(f.sampleRate) * ToUint16(f.channels)) * ToUint16(f.bitDepth)) / 8
  }

  /** `numChannels * bitsPerSample / 8` computed in `uint16`. */
  function BlockAlign(f: AudioFormat): (r: nat)
    ensures r < Two16
  {
    ToUint16(ToUint16(f.channels) * ToUint16(f.bitDepth)) / 8
  }

  /** The four chunk tags, "RIFF", "WAVE", "fmt " and "data", as ASCII bytes. */
  const RiffTag: seq<byte> := [0x52, 0x49, 0x46, 0x46]
  const WaveTag: seq<byte> := [0x57, 0x41, 0x56, 0x45]
  const FmtTag: seq<byte> := [0x66, 0x6d, 0x74, 0x20]
  const DataTag: seq<byte> := [0x64, 0x61, 0x74, 0x61]

  /** The 44 header bytes for a payload of `dataSize` bytes. */
  function HeaderBytes(f: AudioFormat, dataSize: nat): (h: seq<byte>)
    requires dataSize < Two32
    ensures |h| == HeaderSize
  {
    RiffTag + LE32(ToUint32(dataSize + 36)) + WaveTag
    + FmtTag + LE32(16) + LE16(1) + LE16(ToUint16(f.channels))
    + LE32(ToUint32(f.sampleRate)) + LE32(ByteRate(f)) + LE16(BlockAlign(f))
    + LE16(ToUint16(f.bitDepth))
    + DataTag + LE32(dataSize)
  }

  /** Every field of the header, read back at its offset. */
  lemma {:induction false} HeaderLayout(f: AudioFormat, dataSize: nat)
    requires dataSize < Two32
    ensures var h := HeaderBytes(f, dataSize);
      && h[0..4] == RiffTag
      && U32At(h, 4) == (dataSize + 36) % Two32
      && h[8..12] == WaveTag
      && h[12..16] == FmtTag
      && U32At(h, 16) == 16
      && U16At(h, 20) == 1
      && U16At(h, 22) == f.channels % Two16
      && U32At(h, 24) == f.sampleRate % Two32
      && U32At(h, 28) == ByteRate(f)
      && U16At(h, 32) == BlockAlign(f)
      && U16At(h, 34) == f.bitDepth % Two16
      && h[36..40] == DataTag
      && U32At(h, 40) == dataSize
  {
    RiffLayout(f, dataSize);
    FmtLayout(f, dataSize);
    DataLayout(f, dataSize);
  }

  /** The RIFF chunk descriptor: bytes 0 to 12. */
  lemma {:induction false} RiffLayout(f: AudioFormat, dataSize: nat)
    requires dataSize < Two32
    ensures var h := HeaderBytes(f, dataSize);
      && h[0..4] == RiffTag
      && U32At(h, 4) == (dataSize + 36) % Two32
      && h[8..12] == WaveTag
  {
    var h := HeaderBytes(f, dataSize);
    U32AtSlice(h, 4, ToUint32(dataSize + 36));
  }

  /** The fmt sub-chunk: bytes 12 to 36. */
  lemma {:induction false} FmtLayout(f: AudioFormat, dataSize: nat)
    requires dataSize < Two32
    ensures var h := HeaderBytes(f, dataSize);
      && h[12..16] == FmtTag
      && U32At(h, 16) == 16
      && U16At(h, 20) == 1
      && U16At(h, 22) == f.channels % Two16
      && U32At(h, 24) == f.sampleRate % Two32
      && U32At(h, 28) == ByteRate(f)
      && U16At(h, 32) == BlockAlign(f)
      && U16At(h, 34) == f.bitDepth % Two16
  {
    var h := HeaderBytes(f, dataSize);
    U32AtSlice(h, 16, 16);
    U16AtSlice(h, 20, 1);
    U16AtSlice(h, 22, ToUint16(f.channels));
    U32AtSlice(h, 24, ToUint32(f.sampleRate));
    U32AtSlice(h, 28, ByteRate(f));
    U16AtSlice(h, 32, BlockAlign(f));
    U16AtSlice(h, 34, ToUint16(f.bitDepth));
  }

  /** The data sub-chunk header: bytes 36 to 44. */
  lemma {:induction false} DataLayout(f: AudioFormat, dataSize: nat)
    requires dataSize < Two32
    ensures var h := HeaderBytes(f, dataSize);
      && h[36..40] == DataTag
      && U32At(h, 40) == dataSize
  {
    var h := HeaderBytes(f, dataSize);
    U32AtSlice(h, 40, dataSize);
  }

  lemma MulGrows(a: nat, b: int)
    requires 1 <= b
    ensures a <= a * b
  {
  }

  /** When nothing overflows, the byte rate is the textbook product
      sampleRate * channels * bitDepth / 8. */
  lemma ByteRateExact(f: AudioFormat)
    requires 0 <= f.sampleRate && 0 < f.channels < Two16 && 0 < f.bitDepth < Two16
    requires f.sampleRate * f.channels * f.bitDepth < Two32
    ensures ByteRate(f) == f.sampleRate * f.channels * f.bitDepth / 8
  {
    var sc := f.sampleRate * f.channels;
    MulGrows(f.sampleRate, f.channels);
    MulGrows(sc, f.bitDepth);
    assert ToUint32(f.sampleRate) == f.sampleRate;
    assert ToUint16(f.channels) == f.channels && ToUint16(f.bitDepth) == f.bitDepth;
    assert ToUint32(sc) == sc;
    assert ToUint32(sc * f.bitDepth) == sc * f.bitDepth;
  }

  /** When nothing overflows, the block align is channels * bitDepth / 8. */
  lemma BlockAlignExact(f: AudioFormat)
    requires 0 < f.channels && 0 < f.bitDepth && f.channels * f.bitDepth < Two16
    ensures BlockAlign(f) == f.channels * f.bitDepth / 8
  {
    MulGrows(f.channels, f.bitDepth);
    MulGrows(f.bitDepth, f.channels);
    assert ToUint16(f.channels) == f.channels && ToUint16(f.bitDepth) == f.bitDepth;
  }

  // ---------------------------------------------------------------------
  // Writing the header into a file and finalising it

  /** The file contents after `WriteAt(buf, 0)`: the first |buf| bytes are
      replaced, a shorter file grows, later bytes are untouched. */
  function OverwriteAtStart(data: seq<byte>, buf: seq<byte>): (r: seq<byte>)
    ensures |r| == if |data| > |buf| then |data| else |buf|
    ensures r[..|buf|] == buf
    ensures forall i :: |buf| <= i < |data| ==> r[i] == data[i]
  {
    if |data| > |buf| then buf + data[|buf|..] else buf
  }

  /** The payload size finalisation declares: `uint32(size - 44)`. */
  function FinalPayloadSize(data: seq<byte>): nat
  {
    ToUint32(|data| - HeaderSize)
  }

  /** The file after finalisation: the header rewritten for the current length. */
  function Finalized(f: AudioFormat, data: seq<byte>): seq<byte>
  {
    OverwriteAtStart(data, HeaderBytes(f, FinalPayloadSize(data)))
  }

  /** A field read inside a prefix reads the same in the whole sequence. */
  lemma U32AtPrefix(s: seq<byte>, k: nat, off: nat)
    requires off + 4 <= k <= |s|
    ensures U32At(s, off) == U32At(s[..k], off)
  {
  }

  lemma ChunkSizeWraps(n: int)
    ensures (n % Two32 + 36) % Two32 == (n + 36) % Two32
  {
  }

  /** Finalising a file that holds at least a header keeps its length and its
      samples and declares payload length - 44 and chunk size length - 8. */
  lemma {:induction false} FinalizedFields(f: AudioFormat, data: seq<byte>)
    requires |data| >= HeaderSize
    ensures var r := Finalized(f, data);
      && |r| == |data|
      && r[HeaderSize..] == data[HeaderSize..]
      && U32At(r, 40) == (|data| - HeaderSize) % Two32
      && U32At(r, 4) == (|data| - 8) % Two32
      && r[..HeaderSize] == HeaderBytes(f, FinalPayloadSize(data))
  {
    var n := |data| - HeaderSize;
    var h := HeaderBytes(f, FinalPayloadSize(data));
    var r := OverwriteAtStart(data, h);
    assert r[..HeaderSize] == h;
    HeaderLayout(f, FinalPayloadSize(data));
    U32AtPrefix(r, HeaderSize, 40);
    U32AtPrefix(r, HeaderSize, 4);
    ChunkSizeWraps(n);
  }

  /** Finalising twice gives the same file as finalising once. */
  lemma {:induction false} FinalizeIdempotent(f: AudioFormat, data: seq<byte>)
    requires |data| >= HeaderSize
    ensures Finalized(f, Finalized(f, data)) == Finalized(f, data)
  {
    var once := Finalized(f, data);
    FinalizedFields(f, data);
    assert FinalPayloadSize(once) == FinalPayloadSize(data);
    var h := HeaderBytes(f, FinalPayloadSize(data));
    assert once == h + once[HeaderSize..];
  }

  /** Finalising a file that holds exactly a header rewrites it with a zero payload. */
  lemma {:induction false} HeaderOnlyFinalization(f: AudioFormat, data: seq<byte>)
    requires |data| == HeaderSize
    ensures Finalized(f, data) == HeaderBytes(f, 0)
  {
    assert FinalPayloadSize(data) == 0;
  }

  /** A negative size converted to `uint32` wraps to just below 2^32. */
  lemma NegativeWraps(x: int)
    requires x < 0 && 0 <= x + Two32
    ensures ToUint32(x) == x + Two32
  {
    assert (x + Two32) % Two32 == x + Two32;
  }

  /** On a file shorter than a header, `uint32(size - 44)` wraps: a file
      of n < 44 bytes is replaced by a header declaring 2^32 - 44 + n payload
      bytes (4294967252 for an empty file), and a second finalisation then
      gives a different file. */
  lemma {:induction false} ShortFileFinalization(f: AudioFormat, data: seq<byte>)
    requires |data| < HeaderSize
    ensures Finalized(f, data) == HeaderBytes(f, Two32 - HeaderSize + |data|)
    ensures U32At(Finalized(f, data), 40) == Two32 - HeaderSize + |data|
    ensures Finalized(f, Finalized(f, data)) != Finalized(f, data)
  {
    var n := Two32 - HeaderSize + |data|;
    NegativeWraps(|data| - HeaderSize);
    assert FinalPayloadSize(data) == n;
    var once := Finalized(f, data);
    assert once == HeaderBytes(f, n);
    HeaderLayout(f, n);
    var twice := Finalized(f, once);
    HeaderOnlyFinalization(f, once);
    HeaderLayout(f, 0);
    assert U32At(twice, 40) == 0;
    assert U32At(once, 40) != U32At(twice, 40);
  }

  // ---------------------------------------------------------------------
  // The imperative encoder: fill a 44-byte buffer field by field

  /** `copy(b[off:off+4], tag)`. */
  method CopyTag(b: array<byte>, off: nat, tag: seq<byte>)
    requires off + 4 <= b.Length && |tag| == 4
    modifies b
    ensures b[..off + 4] == old(b[..off]) + tag
    ensures b[off + 4..] == old(b[off + 4..])
  {
    var i := 0;
    while i < 4
      invariant 0 <= i <= 4
      invariant b[..off] == old(b[..off])
      invariant forall k :: 0 <= k < i ==> b[off + k] == tag[k]
      invariant b[off + 4..] == old(b[off + 4..])
    {
      b[off + i] := tag[i];
      i := i + 1;
    }
    assert b[..off + 4] == b[..off] + b[off..off + 4];
  }

  /** `writeUint32(b[off:off+4], v)`. */
  method WriteUint32(b: array<byte>, off: nat, v: nat)
    requires off + 4 <= b.Length && v < Two32
    modifies b
    ensures b[..off + 4] == old(b[..off]) + LE32(v)
    ensures b[off + 4..] == old(b[off + 4..])
  {
    b[off] := (v % 256) as byte;
    b[off + 1] := (v / 256 % 256) as byte;
    b[off + 2] := (v / 256 / 256 % 256) as byte;
    b[off + 3] := (v / 256 / 256 / 256 % 256) as byte;
    assert b[..off + 4] == b[..off] + b[off..off + 4];
  }

  /** `writeUint16(b[off:off+2], v)`. */
  method WriteUint16(b: array<byte>, off: nat, v: nat)
    requires off + 2 <= b.Length && v < Two16
    modifies b
    ensures b[..off + 2] == old(b[..off]) + LE16(v)
    ensures b[off + 2..] == old(b[off + 2..])
  {
    b[off] := (v % 256) as byte;
    b[off + 1] := (v / 256 % 256) as byte;
    assert b[..off + 2] == b[..off] + b[off..off + 2];
  }

  /** The RIFF chunk descriptor, bytes 0 to 12 of the buffer. */
  method WriteRiffChunk(b: array<byte>, dataSize: nat)
    requires b.Length == HeaderSize && dataSize < Two32
    modifies b
    ensures b[..12] == RiffTag + LE32(ToUint32(dataSize + 36)) + WaveTag
  {
    CopyTag(b, 0, RiffTag);
    WriteUint32(b, 4, ToUint32(dataSize + 36));
    assert b[..8] == RiffTag + LE32(ToUint32(dataSize + 36));
    CopyTag(b, 8, WaveTag);
  }

  /** The fmt sub-chunk, bytes 12 to 36: PCM, the channel count, the sample
      rate, the byte rate, the block alignment and the sample width. */
  method WriteFmtChunk(b: array<byte>, numChannels: nat, sampleRate: nat, byteRate: nat,
                       blockAlign: nat, bitsPerSample: nat)
    requires b.Length == HeaderSize
    requires numChannels < Two16 && sampleRate < Two32 && byteRate < Two32
    requires blockAlign < Two16 && bitsPerSample < Two16
    modifies b
    ensures b[..36] == old(b[..12]) + FmtTag + LE32(16) + LE16(1) + LE16(numChannels)
      + LE32(sampleRate) + LE32(byteRate) + LE16(blockAlign) + LE16(bitsPerSample)
  {
    ghost var w := old(b[..12]);
    CopyTag(b, 12, FmtTag);
    w := w + FmtTag;
    WriteUint32(b, 16, 16);
    w := w + LE32(16);
    assert b[..20] == w;
    WriteUint16(b, 20, 1);
    w := w + LE16(1);
    assert b[..22] == w;
    WriteUint16(b, 22, numChannels);
    w := w + LE16(numChannels);
    assert b[..24] == w;
    WriteUint32(b, 24, sampleRate);
    w := w + LE32(sampleRate);
    assert b[..28] == w;
    WriteUint32(b, 28, byteRate);
    w := w + LE32(byteRate);
    assert b[..32] == w;
    WriteUint16(b, 32, blockAlign);
    w := w + LE16(blockAlign);
    assert b[..34] == w;
    WriteUint16(b, 34, bitsPerSample);
  }

  /** The data sub-chunk header, bytes 36 to 44. */
  method WriteDataChunk(b: array<byte>, dataSize: nat)
    requires b.Length == HeaderSize && dataSize < Two32
    modifies b
    ensures b[..] == old(b[..36]) + DataTag + LE32(dataSize)
  {
    CopyTag(b, 36, DataTag);
    assert b[..40] == old(b[..36]) + DataTag;
    WriteUint32(b, 40, dataSize);
    assert b[..] == b[..44];
  }

  /** The buffer `writeWAVHeader` assembles before writing it at offset 0. */
  method BuildHeader(f: AudioFormat, dataSize: nat) returns (header: seq<byte>)
    requires dataSize < Two32
    ensures header == HeaderBytes(f, dataSize)
  {
    var sampleRate := ToUint32(f.sampleRate);
    var numChannels := ToUint16(f.channels);
    var bitsPerSample := ToUint16(f.bitDepth);
    var byteRate := ToUint32(ToUint32(sampleRate * numChannels) * bitsPerSample) / 8;
    var blockAlign := ToUint16(numChannels * bitsPerSample) / 8;

    var b := new byte[HeaderSize];
    WriteRiffChunk(b, dataSize);
    WriteFmtChunk(b, numChannels, sampleRate, byteRate, blockAlign, bitsPerSample);
    WriteDataChunk(b, dataSize);
    header := b[..];
  }
}
